=== FILE: README.md ===
# bucket: natural order, root containment and directory archives

This project models the pure logic in `bucket.go`, a small Go file server, and proves properties of it in Dafny. The logic has three parts.

1. **Natural-order listing** (`NaturalOrder`, natural.dfy). A listing is sorted by the comparator `FileInfoJSONSorted.Less`. Directories come first. Names are lower-cased and cut by `partitionByDigitness` into maximal runs of digits and of non-digits. The runs are compared pair by pair:
   - digit runs compare by numeric value when both fit in a `uint64`;
   - any other pair compares by Go's string order;
   - when no pair decides, the whole lower-cased names are compared with `<=`.
2. **Root containment** (`Paths`, paths.dfy). `normalizePathUnderRoot` joins and cleans the requested path under the served root, takes the path relative to the root, and refuses it if that relative path contains `..` anywhere. Go's `path.Clean`, `path.Join`, `path.Base` and `filepath.Rel` are modelled on Unix. A path is a rooted flag plus its segments, and cleaning is a left-to-right pass with a stack.
3. **Directory download** (`Archive`, archive.dfy). `downloadDirectory` names the download and walks the directory. For every node it adds one zip entry, made of a name relative to the directory, a kind and a body, and it stops at the first error. The walked directory is an abstract tree whose nodes may carry the fault at which the callback fails.

Two small extras are in `Media` (media.dfy):
- `getMIMEType`, with the extension table as a function parameter;
- the decision `getThumbnail` takes from a MIME type.

The shared pieces are in two modules:
- `Text` (text.dfy) holds ASCII digits and lower-casing, Go's string `<`, `strings.Index`, `strings.LastIndex` and `strings.HasPrefix`.
- `Wrappers` (wrappers.dfy) holds `Option` and `Result`.

Two behaviours of the code are worth knowing before reading the proofs:
- **The comparator is not a strict weak order.** Go's `sort.Interface` asks that `Less` describe a transitive ordering; this one does not.
  - It is reflexive: names equal up to case compare `true` both ways (`LessBothWaysIffSameRank`).
  - The `uint64` overflow fallback makes it intransitive. `2 < 10` numerically, `10 <= 100000000000000000000` as text, and `100000000000000000000 <= 2` as text (`LessNotTransitive`).
- **The archive has a root entry.** The walked directory itself yields the first entry, named `./` (`DownloadPlan`, `SmallTree`, `EmptyDirectory`).

## Model

| member | source | states |
|---|---|---|
| Text.Lower | bucket.go:56-57 | lower-casing keeps the length and lower-cases each character in place |
| Text.LowerIdempotent | bucket.go:56-57 | lower-casing a lower-cased name changes nothing |
| Text.NotAfterTotal | bucket.go:100 | Go's `<=` on strings is total and holds both ways exactly for equal strings |
| Text.BelowIrreflexive | bucket.go:100 | no string is `<` itself |
| Text.BelowTrichotomy | bucket.go:84 | of two distinct strings exactly one is `<` the other |
| Text.IndexOf | bucket.go:163 | `strings.Index` gives the first position where the substring occurs, or -1 exactly when it occurs nowhere |
| Text.IndexZeroIsPrefix | bucket.go:425-435 | `strings.Index(s, p) == 0` holds exactly when `s` starts with `p` |
| Text.LastIndexOf | bucket.go:146 | `strings.LastIndex` gives a position holding the character with none after it, or -1 |
| NaturalOrder.RunLength | bucket.go:111-125 | the first run is non-empty and maximal: every character in it has the first character's digitness, and the next one does not |
| NaturalOrder.Runs | bucket.go:106-130 | the runs concatenate to the input, each run is all digits or all non-digits, and neighbouring runs alternate |
| NaturalOrder.Partition | bucket.go:106-130 | `partitionByDigitness` concatenates back to its input and yields `[""]` for the empty name and alternating maximal runs otherwise |
| NaturalOrder.RunSplitUnique | bucket.go:106-130 | any split into alternating runs that concatenates to `s` is the one `Runs(s)` computes |
| NaturalOrder.PartitionByDigitness | bucket.go:106-130 | the character loop with `cur` and `lastWasDigit` computes exactly `Partition` |
| NaturalOrder.ConcatAppend | bucket.go:106-130 | concatenating two part lists concatenates their texts |
| NaturalOrder.PartitionAround | bucket.go:106-130 | a run between a text and a tail that both change digitness next to it is kept whole, with the runs of both sides around it |
| NaturalOrder.Less | bucket.go:44-101 | `FileInfoJSONSorted.Less`: a directory and a non-directory are ordered directories first; entries of the same kind whose names are equal up to case are `Less` both ways |
| NaturalOrder.ParseUint64 | bucket.go:77-78 | `strconv.ParseUint(s, 10, 64)` succeeds exactly for a non-empty digit string whose decimal value fits in a `uint64`, and then yields that value; it fails on the empty string and on any non-digit |
| NaturalOrder.ParseIgnoresLeadingZero | bucket.go:77-78 | a leading zero does not change what parses: `0` + s parses exactly as s |
| NaturalOrder.ComparePair | bucket.go:70-94 | a pair of runs that both parse as `uint64` decides exactly when the values differ, and then by numeric order; any other pair decides exactly when the texts differ, and then by string `<=` |
| NaturalOrder.CompareRuns | bucket.go:60-96 | the loop decides nothing exactly when no pair within the shorter length decides; otherwise its answer is that of the first deciding pair, all earlier pairs deciding nothing |
| NaturalOrder.NumericTieSkipped | bucket.go:76-90 | digit runs of equal value but different text are skipped and the comparison goes on with the following pairs |
| NaturalOrder.TextRunsDecide | bucket.go:70-93 | at the first pair of runs differing in text, a pair that is not two digit runs decides by string `<=`, whatever follows |
| NaturalOrder.SingleRun | bucket.go:106-130 | a string that is one run partitions into itself |
| NaturalOrder.DigitFreePartition | bucket.go:56-59 | a name without digits lower-cases to a single run |
| NaturalOrder.DigitFreeNamesCompareAsText | bucket.go:44-101 | two names without digits are ordered as lower-cased text with `<=` |
| NaturalOrder.AppleBeforeBanana | bucket.go:44-101 | `apple` comes strictly before `Banana` |
| NaturalOrder.TieThenNumeric | bucket.go:60-96 | `a01b2` comes strictly before `a1b10`: the tie `01`/`1` is skipped and `2` beats `10` numerically |
| NaturalOrder.FourRuns | bucket.go:106-130 | a string made of four alternating runs partitions into exactly those runs |
| NaturalOrder.LessDirectoriesFirst | bucket.go:48-53 | a directory is ordered before a non-directory and never after it, whatever the names |
| NaturalOrder.LessIgnoresCase | bucket.go:56-59 | the order depends only on the lower-cased names and the directory flags |
| NaturalOrder.CompareRunsSelf | bucket.go:66-70 | equal run sequences never decide |
| NaturalOrder.ComparePairFlip | bucket.go:70-94 | exchanging the two runs of a pair negates its decision |
| NaturalOrder.CompareRunsFlip | bucket.go:60-96 | exchanging the two run sequences negates the decision |
| NaturalOrder.CompareRunsSkipsCommon | bucket.go:66-70 | a common leading block of runs is skipped |
| NaturalOrder.LessReflexive | bucket.go:100 | every entry is `Less` than itself, because the fallback is `<=` |
| NaturalOrder.LessConnex | bucket.go:44-101 | of any two entries at least one is `Less` than the other |
| NaturalOrder.LessBothWaysIffSameRank | bucket.go:44-101 | `Less` holds both ways exactly when the directory flags agree and the names are equal up to case |
| NaturalOrder.LoweredPartition | bucket.go:56-59 | lower-casing leaves a digit run and its neighbours' run boundaries in place |
| NaturalOrder.SharedPrefixSkipped | bucket.go:66-70 | names sharing a prefix up to a digit run are decided from that run on |
| NaturalOrder.NumericRunsDecide | bucket.go:76-90 | at the first differing runs, two digit runs that fit in `uint64` and differ in value decide by value |
| NaturalOrder.NumericTieFallsThrough | bucket.go:88-100 | digit runs of equal value but different text (`01` and `1`) do not decide; the lower-cased names then compare with `<=` |
| NaturalOrder.OversizedRunsCompareAsText | bucket.go:77-85 | when either digit run overflows `uint64`, the pair compares with string `<=` |
| NaturalOrder.FileTwoBeforeFileTen | bucket.go:76-90 | `file2` comes strictly before `file10` |
| NaturalOrder.CaseVariantsTie | bucket.go:100 | `File2` and `file2` are each `Less` than the other |
| NaturalOrder.ValueLowerBound | bucket.go:77-78 | a digit string without a leading zero is worth at least 10 to the power of its length minus one |
| NaturalOrder.HugeOverflows | bucket.go:77-85 | `100000000000000000000` is all digits and exceeds the largest `uint64` |
| NaturalOrder.BigTextOrder | bucket.go:84 | as text, `10 <= 10…` and `10… <= 2` but not `2 <= 10…` |
| NaturalOrder.OversizedPair | bucket.go:77-85 | two distinct digit names, one too large for `uint64`, compare as text with `<=` |
| NaturalOrder.LessNotTransitive | bucket.go:76-94 | `2 < 10` and `10 < 100000000000000000000` and `100000000000000000000 < 2` under `Less`, so it is not transitive |
| Paths.Split | bucket.go:159 | splitting at slashes gives at least one piece, no piece holds a slash, and joining the pieces with slashes gives the input back |
| Paths.SplitJoin | bucket.go:159 | splitting slash-free segments after joining them with slashes gives them back |
| Paths.Clean | bucket.go:159 | `path.Clean` keeps rootedness and yields a clean path: names only, apart from leading `..` on a relative path |
| Paths.FoldOfClean | bucket.go:159 | cleaning leaves a clean path unchanged |
| Paths.ParseFormatRoundTrip | bucket.go:159 | printing a clean path and cleaning the text again gives the same path |
| Paths.CleanStringIdempotent | bucket.go:159 | `path.Clean` is idempotent on strings |
| Paths.CleanAppendName | bucket.go:159 | cleaning `s/name` appends `name` to the cleaned `s` |
| Paths.CleanAppendDotDot | bucket.go:159 | `name/..` cancels `name`: cleaning `s/name/..` gives the cleaned `s` |
| Paths.FoldNameDotDot | bucket.go:159 | the cleaning pass pushes a name and pops it again on the following `..` |
| Paths.CleanRootDotDot | bucket.go:159 | `/..` cleans to the root `/` |
| Paths.CleanRelativeDotDot | bucket.go:159 | a relative `..` has nothing to cancel and is kept |
| Paths.CleanString | bucket.go:159 | the cleaned text is never empty and parses back to the same cleaned path |
| Paths.FormatNonEmpty | bucket.go:159 | a clean path never prints as the empty string |
| Paths.JoinPath | bucket.go:159 | `path.Join` is empty exactly when both arguments are, and otherwise already clean |
| Paths.CleanAppendPath | bucket.go:159 | cleaning `a/b` for a non-empty `a` pushes the pieces of `b` onto the cleaned `a`, keeping `a`'s rootedness |
| Paths.JoinPushesChild | bucket.go:159 | `path.Join(a, b)` cleans to the cleaned `a` with the pieces of `b` pushed on, so a rooted `b` is joined below `a`, not substituted for it; with an empty `a` it cleans like `b` |
| Paths.RootedChildTarget | bucket.go:159 | `/r` joined with `/c`, for names `r` and `c`, cleans to the rooted path `r/c` |
| Paths.RootedChildJoined | bucket.go:159 | `path.Join("/r", "/c")` is `/r/c` |
| Paths.RootedChildAccepted | bucket.go:157-169 | a rooted child without `..` is accepted under the root `/r`, as `/r/c` |
| Paths.AbsoluteChildStaysUnderRoot | bucket.go:157-169 | `path.Join("/srv", "/etc")` is `/srv/etc`, and the request `/etc` under the root `/srv` is accepted as that path |
| Paths.JoinName | bucket.go:159 | joining a single name onto any directory, empty or not, cleans to that directory's segments followed by the name |
| Paths.Rel | bucket.go:162 | `filepath.Rel` succeeds exactly when the cleaned paths are equal, or are both rooted or both relative with no base `..` where they part; and on success, joining the base with its result cleans to the target |
| Paths.RelToSibling | bucket.go:162 | from `/r/x` to a sibling `/r/y`, `filepath.Rel` climbs and descends, giving `../y` |
| Paths.RelClimbsToSibling | bucket.go:162 | `filepath.Rel("/a/b", "/a/c")` is `../c` |
| Paths.RelJoinsBack | bucket.go:162 | the same promise for the segments `RelSegments` computes from the cleaned base and target |
| Paths.RelSegmentsJoinBack | bucket.go:162 | for clean paths, base and target agree on rootedness, the cleaning pass over the base with the relative segments pushed gives the target, and every relative segment is `..`, `.` or a name |
| Paths.RelDescends | bucket.go:162 | a target below the base is reached by pushing the target's remaining segments |
| Paths.RelClimbsBack | bucket.go:162 | a target beside the base is reached by one `..` per remaining base segment and then the target's remaining segments |
| Paths.FoldUps | bucket.go:162 | pushing one `..` per trailing name removes exactly those names |
| Paths.FoldClimb | bucket.go:162 | climbing out of the names past the common prefix leaves the common prefix |
| Paths.FoldResumes | bucket.go:159 | the cleaning pass over a clean path's rest, started from its prefix, gives the path back |
| Paths.NamesAfter | bucket.go:159 | past a segment other than `..`, a clean path holds only names |
| Paths.RelTextSplits | bucket.go:162 | printing relative segments and splitting the text again changes nothing cleaning can see, and the text never starts with `/` |
| Paths.CleanEmpty | bucket.go:159 | the empty path cleans to `.` |
| Paths.CleanAppendNothing | bucket.go:159 | appending `/.` or `//` to a non-empty path leaves its cleaned form unchanged |
| Paths.CommonPrefix | bucket.go:162 | the common prefix of two segment lists is shared, and the lists differ right after it |
| Paths.RelWithoutDotDot | bucket.go:162-163 | a relative path from `filepath.Rel` with no `..` means the target is the base or lies below it |
| Paths.RelOfDescendant | bucket.go:162 | `filepath.Rel` from a base to a path strictly below it gives the segments past the base |
| Paths.RelAcceptsExactly | bucket.go:162-163 | `filepath.Rel` succeeds with no `..` in its text exactly when the target lies within the base and no segment below the base contains `..` |
| Paths.NormalizePathUnderRoot | bucket.go:157-169 | on success the result is the cleaned join of root and child and lies within the cleaned root; every failure says `Invalid path` |
| Paths.NormalizeAcceptsExactly | bucket.go:157-169 | a request is accepted exactly when its cleaned join lies within the root and no segment below the root contains `..` |
| Paths.RootAliases | bucket.go:157-169 | the children `""` and `.` resolve to the cleaned root, and so does `/` under a non-empty root |
| Paths.DotDotNameRefused | bucket.go:162-166 | a single name containing `..`, such as `a..b`, is refused under any root |
| Paths.DotDotInJoin | bucket.go:163 | `..` occurs in slash-joined segments exactly when it occurs in one of them |
| Paths.StripTrailingSlashes | bucket.go:296 | stripping trailing slashes leaves a prefix that does not end in a slash, and everything removed is a slash |
| Paths.Base | bucket.go:296 | `path.Base` is never empty, is `/` exactly for a non-empty path of slashes only, and otherwise holds no slash |
| Paths.FormatBeforeLast | bucket.go:296 | a path with segments prints as its last segment, possibly preceded by a prefix and a slash |
| Paths.StrippedToNothing | bucket.go:296 | removing trailing slashes leaves nothing exactly when the path is all slashes |
| Paths.AfterLastSlashOfStripped | bucket.go:296 | after the last slash of a path that does not end in one comes a slash-free piece, empty only for the empty path |
| Paths.BaseOfCleanPath | bucket.go:296 | `path.Base` of a clean path is its last segment, `/` for the root and `.` for the empty relative path |
| Archive.Decimal | bucket.go:372 | `%d` prints a non-empty digit string whose value is the number |
| Archive.DecimalParses | bucket.go:372 | a count printed with `%d` parses back, with `strconv.ParseUint`, to the same number |
| Archive.RelTextOfNames | bucket.go:318 | a relative path of plain names prints non-empty, without a leading or trailing slash |
| Archive.EntryName | bucket.go:318-337 | for a path of plain names the entry name is non-empty, relative, and ends in `/` exactly for directories |
| Archive.FaultEntries | bucket.go:309-382 | a failing node leaves at most one entry, none exactly when it failed before the zip writer accepted its header, named after its path and kind |
| Archive.FaultMessage | bucket.go:309-382 | every error message starts with `Failed to `, all but the walk's own error name the node's relative path, and a failed copy gives the number of bytes written |
| Archive.Callback | bucket.go:308-388 | the callback completes exactly for a node that does not fail, adds at most one entry and exactly one when it completes, each named after the node's path and the entry's kind |
| Archive.Visit | bucket.go:308-388 | the walk adds at most one entry per node of the subtree, and one for every node when it completes |
| Archive.VisitAll | bucket.go:308-388 | the same count for a list of children |
| Archive.DownloadPlan | bucket.go:308-388 | at most one entry per node, one for every node when the walk completes, and a walked directory's first entry is `./` |
| Archive.VisitIsPreorderRun | bucket.go:308-388 | the walk is the callback applied to the nodes in depth-first order, parents first, stopping at the first error |
| Archive.VisitAllIsPreorderRun | bucket.go:308-388 | walking a list of children is the callback over their depth-first listing |
| Archive.RunAppend | bucket.go:308-388 | running the callback over two node lists in turn is the first run, then the second unless the first stopped |
| Archive.RunWithoutFaults | bucket.go:308-388 | when no node fails, every node adds its entry in order and the walk completes |
| Archive.RunStopsAtFirstFault | bucket.go:309-385 | the nodes before the first failing one keep their entries, the failing one leaves what it wrote, nothing later is added, and its message is reported |
| Archive.PreorderPathsAreNames | bucket.go:308 | every node the walk visits has a relative path made of plain names |
| Archive.RunNamesRelative | bucket.go:318-336 | no entry the walk adds has an absolute name |
| Archive.EntryNamesRelative | bucket.go:314-318 | no entry of a directory download starts with `/`, so the server path never leaks |
| Archive.WalkPathCleans | bucket.go:308 | the path the walk hands the callback cleans to the directory's segments followed by the node's names |
| Archive.WalkPathRel | bucket.go:318 | `filepath.Rel(dirPath, path)` of a walked node is the relative name the model gives the entry |
| Archive.EmptyDirectory | bucket.go:334-337 | an empty directory downloads as the single entry `./` |
| Archive.SmallTree | bucket.go:308-388 | directory `a` with `1.txt` next to file `b.txt` gives entries `./`, `a/`, `a/1.txt`, `b.txt` |
| Archive.SymlinkKeptAsLink | bucket.go:347-356 | a symlink becomes a link entry whose body is its target and is not followed |
| Archive.OpenFailureSkipsSiblings | bucket.go:362-366 | once a top-level file cannot be opened, the walk records its empty entry, reports `Failed to read` with its name, and visits none of the siblings after it |
| Archive.FailureStopsWalk | bucket.go:362-366 | for any names, a directory holding a file, an unreadable file and another file gives `./`, the first file's entry, the unreadable file's empty entry, and stops; the third file is not added |
| Archive.DownloadName | bucket.go:292-297 | the offered name always ends in `.zip` after a non-empty stem, and is `files.zip` exactly for the root and for directories whose base name is `files` |
| Archive.DownloadNameOfCleanPath | bucket.go:292-297 | for a clean directory other than the root, the name is its last segment with `.zip` and has no slash |
| Archive.FilesDirectoryLooksLikeRoot | bucket.go:292-297 | a directory named `files` downloads under the same name as the root |
| Media.Extension | bucket.go:146-151 | the extension is absent exactly when there is no `.`; otherwise it is the suffix starting at the last `.` |
| Media.ExtensionUnique | bucket.go:146-151 | the only suffix starting with `.` and holding no other `.` is the extension |
| Media.MimeType | bucket.go:145-152 | a path without a `.` has the empty type |
| Media.MimeTypeOfName | bucket.go:145-152 | `stem.ext` is typed by `.ext`, whatever directories precede it |
| Media.DotInDirectoryName | bucket.go:146-151 | `/a.b/c` is looked up under the extension `.b/c` |
| Media.ThumbnailFor | bucket.go:445-447 | a refused type gets status 415 |
| Media.ThumbnailCases | bucket.go:421-447 | SVG is served as it is, then `image…` gets an image thumbnail, `video…` a video thumbnail, and anything else is refused with `Unsupported file type: ` and the type |
| Media.NoExtensionUnsupported | bucket.go:145-152 | a path without a `.` gets no thumbnail, with message `Unsupported file type: ` |

## Left out

- HTTP handling is not modelled. This covers routing, `url.QueryUnescape`, headers (including `Content-Disposition`), status codes other than 415, `http.Error` and `http.ServeFile`. The archive's `Aborted` outcome carries only the message, not the 500 status.
- The file system is not modelled. The walked directory is a given tree: `os.Lstat`, directory listing, `os.Open` and `os.Readlink` appear only through the data in the tree and its fault markers.
- `filepath.Walk` itself is not modelled. Children are given in the name-sorted order Walk visits them. Symlinks are never followed, as Walk does not follow them.
- The zip byte encoding, `io.Copy`, `Flush` and `Close` are not modelled. The model keeps the entries' names, kinds and bodies.
- Archive.FaultEntries: a node that fails after its header was accepted keeps an entry whose body is what was written. The model takes that text as given (`CopyFault`) rather than deriving it from a byte count.
- Spawning GraphicsMagick and ffmpeg is not modelled, nor their command lines or output. Neither is `exec.LookPath` at start-up.
- JSON encoding, time formatting and `mime.TypeByExtension` are not modelled. The last is a function parameter of `Media.MimeType`.
- `isSourceCode` is not part of this model.
- `sort.Sort` is not modelled. The comparator is not a strict weak order, so the code promises no sorted-output theorem.
- Text.IsDigit and Text.Lower cover ASCII only. Go's `unicode.IsDigit` and `strings.ToLower` are Unicode-aware. Strings are sequences of characters, so a multi-byte rune is one character here.
- NaturalOrder.ParseUint64 does not model the error values of `strconv.ParseUint` (syntax error against range error): both are `None`, since the comparator only tests for success.
- Paths: `filepath.Rel`'s error text is a stand-in, because `normalizePathUnderRoot` discards it. `filepath.Rel` on Windows volumes is not modelled.

=== FILE: archive.dfy ===
/** The directory download of bucket.go (`downloadDirectory`): the name the
    archive is offered under, and the sequence of zip entries the walk
    callback adds, with the zip byte encoding left out.

    The directory is an abstract tree whose children are listed in the order
    `filepath.Walk` visits them (sorted by name). A node may carry a fault: the
    step of the callback at which the file system or the zip writer fails for
    it. The callback then reports an error message and the walk stops. */
module Archive {
  import opened Wrappers
  import opened Text
  import opened Paths
  import opened NaturalOrder

  /* ---------------------------------------------------------------------- */
  /* The walked tree and the archive                                        */
  /* ---------------------------------------------------------------------- */

  /** The three kinds of zip entry the callback creates. */
  datatype Kind = Regular | Directory | Link

  /** The step of the walk callback at which a node fails. */
  datatype Fault =
    | WalkFault                      // the walk hands the callback an error (lstat or listing failed)
    | HeaderFault                    // no zip header can be built from the file info
    | CreateFault                    // the zip writer refuses the entry header
    | ReadlinkFault                  // a symlink whose target cannot be read
    | OpenFault                      // a regular file that cannot be opened
    | CopyFault(written: string)     // copying a regular file fails after `written`
    | FlushFault(flushed: Flushed)   // the complete entry cannot be flushed

  /** The node whose complete entry was written when the flush failed. */
  datatype Flushed = FlushedFile(content: string) | FlushedDir | FlushedLink(target: string)

  /** A node of the walked tree; `name` is its name within its parent. */
  datatype Node =
    | File(name: string, content: string)
    | Dir(name: string, children: seq<Node>)
    | Symlink(name: string, target: string)
    | Faulty(name: string, fault: Fault)

  /** One zip entry: its name, kind and body bytes. */
  datatype Entry = Entry(name: string, kind: Kind, body: string)

  /** How the walk ended: every node added, or stopped with an HTTP 500 error
      message. */
  datatype Outcome = Completed | Aborted(message: string)

  /** The entries added to the archive, in order, and how the walk ended. */
  datatype Plan = Plan(entries: seq<Entry>, outcome: Outcome)

  /* ---------------------------------------------------------------------- */
  /* Names                                                                  */
  /* ---------------------------------------------------------------------- */

  /** A path of plain names relative to the walked directory, printed as
      `filepath.Rel` prints it (`.` for the directory itself), is never
      empty and neither starts nor ends with a slash. */
  lemma RelTextOfNames(rel: seq<string>)
    ensures (forall i :: 0 <= i < |rel| ==> IsName(rel[i])) ==>
              var t := RelText(rel); t != "" && t[0] != '/' && t[|t| - 1] != '/'
  {
    if rel != [] && forall i :: 0 <= i < |rel| ==> IsName(rel[i]) {
      var last := rel[|rel| - 1];
      assert IsName(rel[0]) && IsName(last);
      JoinSlashFirst(rel);
      JoinSlashLast(rel);
    }
  }

  /** The name of an entry (the node's relative path, plus a `/` for a
      directory, so that it shows up in the archive even when empty): for a
      path of plain names it is relative, and it ends in `/` exactly for
      directories. */
  function EntryName(rel: seq<string>, kind: Kind): (r: string)
    ensures (forall i :: 0 <= i < |rel| ==> IsName(rel[i])) ==>
              r != "" && r[0] != '/' && (r[|r| - 1] == '/' <==> kind == Directory)
  {
    RelTextOfNames(rel);
    if kind == Directory then RelText(rel) + "/" else RelText(rel)
  }

  /** The decimal digits of `n`, as `%d` prints them. */
  function Decimal(n: nat): (r: string)
    ensures |r| > 0 && AllDigits(r)
    ensures Value(r) == n
    decreases n
  {
    var d := [('0' as int + n % 10) as char];
    if n < 10 then d
    else
      var r := Decimal(n / 10) + d;
      assert r[..|r| - 1] == Decimal(n / 10);
      r
  }

  /** A byte count printed with `%d` reads back as the same number. */
  lemma DecimalParses(n: nat)
    requires n <= MaxUint64
    ensures ParseUint64(Decimal(n)) == Some(n)
  {
  }

  /* ---------------------------------------------------------------------- */
  /* The walk                                                               */
  /* ---------------------------------------------------------------------- */

  /** The entries a failing node still leaves in the archive: none when the
      callback fails before the zip writer accepts the header, otherwise the
      entry with the body written so far. */
  function FaultEntries(rel: seq<string>, fault: Fault): (r: seq<Entry>)
    ensures |r| <= 1
    ensures r == [] <==> fault.WalkFault? || fault.HeaderFault? || fault.CreateFault?
    ensures forall e :: e in r ==> e.name == EntryName(rel, e.kind)
  {
    match fault
    case WalkFault => []
    case HeaderFault => []
    case CreateFault => []
    case ReadlinkFault => [Entry(RelText(rel), Link, "")]
    case OpenFault => [Entry(RelText(rel), Regular, "")]
    case CopyFault(written) => [Entry(RelText(rel), Regular, written)]
    case FlushFault(FlushedFile(content)) => [Entry(EntryName(rel, Regular), Regular, content)]
    case FlushFault(FlushedDir) => [Entry(EntryName(rel, Directory), Directory, "")]
    case FlushFault(FlushedLink(target)) => [Entry(EntryName(rel, Link), Link, target)]
  }

  /** The words every error message starts with. */
  const FailedTo: string := "Failed to "

  /** `Failed to <what><p><post>`, which mentions `p` right after the
      opening words. */
  function Failure(what: string, p: string, post: string): (r: string)
    ensures HasPrefix(r, FailedTo) && OccursAt(r, p, |FailedTo| + |what|)
  {
    var r := FailedTo + what + p + post;
    assert r[..|FailedTo|] == FailedTo;
    assert r[|FailedTo| + |what|..|FailedTo| + |what| + |p|] == p;
    r
  }

  /** `Failed to <what><p><mid><q><post>`, which mentions both `p` and `q`. */
  function FailureTwo(what: string, p: string, mid: string, q: string, post: string): (r: string)
    ensures HasPrefix(r, FailedTo) && OccursAt(r, p, |FailedTo| + |what|)
    ensures OccursAt(r, q, |FailedTo| + |what| + |p| + |mid|)
  {
    var k := |FailedTo| + |what|;
    var r := FailedTo + what + p + mid + q + post;
    assert r[..|FailedTo|] == FailedTo;
    assert r[k..k + |p|] == p;
    assert r[k + |p| + |mid|..k + |p| + |mid| + |q|] == q;
    r
  }

  /** The error text the callback reports. Every message starts with
      `Failed to `, and all but the walk's own error name the node by its
      relative path, never by its full path; a failed copy also gives the
      number of bytes written. */
  function FaultMessage(rel: seq<string>, fault: Fault): (r: string)
    ensures HasPrefix(r, "Failed to ")
    ensures !fault.WalkFault? ==> Occurs(r, RelText(rel))
    ensures fault.CopyFault? ==> Occurs(r, Decimal(|fault.written|))
  {
    var p := RelText(rel);
    match fault
    case WalkFault => Failure("generate archive", "", "")
    case HeaderFault => Failure("generate archive header for ", p, "")
    case CreateFault => Failure("add ", p, " to archive")
    case ReadlinkFault => Failure("resolve ", p, "")
    case OpenFault => Failure("read ", p, "")
    case CopyFault(written) => FailureTwo("write ", p, " to archive after ", Decimal(|written|), " bytes")
    case FlushFault(_) => Failure("flush data for ", p, "")
  }

  /** One call of the walk callback for the node at relative path `rel`: a
      sound node adds its one entry and lets the walk go on; a failing node
      adds at most one entry and stops it. Every entry is named after the
      node's relative path and its own kind. */
  function Callback(n: Node, rel: seq<string>): (r: Plan)
    ensures r.outcome.Completed? <==> !n.Faulty?
    ensures |r.entries| <= 1
    ensures r.outcome.Completed? ==> |r.entries| == 1
    ensures forall e :: e in r.entries ==> e.name == EntryName(rel, e.kind)
  {
    match n
    case File(_, content) => Plan([Entry(EntryName(rel, Regular), Regular, content)], Completed)
    case Dir(_, _) => Plan([Entry(EntryName(rel, Directory), Directory, "")], Completed)
    case Symlink(_, target) => Plan([Entry(EntryName(rel, Link), Link, target)], Completed)
    case Faulty(_, fault) => Plan(FaultEntries(rel, fault), Aborted(FaultMessage(rel, fault)))
  }

  /** Runs `q` after `p` unless `p` stopped the walk. */
  function Then(p: Plan, q: Plan): Plan {
    if p.outcome.Aborted? then p else Plan(p.entries + q.entries, q.outcome)
  }

  /** `filepath.Walk` from `n`: the callback on `n`, then, for a directory,
      on its children in order; the first error ends the walk. */
  function Visit(n: Node, rel: seq<string>): (r: Plan)
    ensures |r.entries| <= |Preorder(n, rel)|
    ensures r.outcome.Completed? ==> |r.entries| == |Preorder(n, rel)|
    decreases n, 1
  {
    if n.Dir? then Then(Callback(n, rel), VisitAll(n.children, rel)) else Callback(n, rel)
  }

  function VisitAll(children: seq<Node>, parent: seq<string>): (r: Plan)
    ensures |r.entries| <= |PreorderAll(children, parent)|
    ensures r.outcome.Completed? ==> |r.entries| == |PreorderAll(children, parent)|
    decreases children, 0
  {
    if children == [] then Plan([], Completed)
    else Then(Visit(children[0], parent + [children[0].name]), VisitAll(children[1..], parent))
  }

  /** The archive plan for the directory tree `tree`: at most one entry per
      node, one for every node when the walk completes, and the walked
      directory itself first, as `./`. */
  function DownloadPlan(tree: Node): (r: Plan)
    ensures |r.entries| <= |Preorder(tree, [])|
    ensures r.outcome.Completed? ==> |r.entries| == |Preorder(tree, [])|
    ensures tree.Dir? ==> |r.entries| > 0 && r.entries[0] == Entry("./", Directory, "")
  {
    assert EntryName([], Directory) == "./";
    Visit(tree, [])
  }

  /* ---------------------------------------------------------------------- */
  /* Reference: the callback over the nodes in depth-first order            */
  /* ---------------------------------------------------------------------- */

  /** A node met by the walk, with its path relative to the walked
      directory. */
  datatype Visited = Visited(node: Node, rel: seq<string>)

  /** Every node of the tree, parents before children, children in order. */
  function Preorder(n: Node, rel: seq<string>): seq<Visited>
    decreases n, 1
  {
    if n.Dir? then [Visited(n, rel)] + PreorderAll(n.children, rel) else [Visited(n, rel)]
  }

  function PreorderAll(children: seq<Node>, parent: seq<string>): seq<Visited>
    decreases children, 0
  {
    if children == [] then []
    else Preorder(children[0], parent + [children[0].name]) + PreorderAll(children[1..], parent)
  }

  /** The callback applied to each visited node in turn, stopping at the
      first error. */
  function Run(vs: seq<Visited>): Plan {
    if vs == [] then Plan([], Completed)
    else Then(Callback(vs[0].node, vs[0].rel), Run(vs[1..]))
  }

  /** The entry a node that does not fail contributes. */
  function EntryOf(v: Visited): Entry
    requires !v.node.Faulty?
  {
    match v.node
    case File(_, content) => Entry(EntryName(v.rel, Regular), Regular, content)
    case Dir(_, _) => Entry(EntryName(v.rel, Directory), Directory, "")
    case Symlink(_, target) => Entry(EntryName(v.rel, Link), Link, target)
  }

  function EntriesOf(vs: seq<Visited>): (es: seq<Entry>)
    requires forall i :: 0 <= i < |vs| ==> !vs[i].node.Faulty?
    ensures |es| == |vs|
    ensures forall i :: 0 <= i < |vs| ==> es[i] == EntryOf(vs[i])
  {
    if vs == [] then [] else [EntryOf(vs[0])] + EntriesOf(vs[1..])
  }

  lemma ThenAssoc(p: Plan, q: Plan, r: Plan)
    ensures Then(Then(p, q), r) == Then(p, Then(q, r))
  {
  }

  lemma {:induction false} RunAppend(a: seq<Visited>, b: seq<Visited>)
    ensures Run(a + b) == Then(Run(a), Run(b))
    decreases |a|
  {
    if a == [] {
      assert a + b == b;
    } else {
      assert (a + b)[1..] == a[1..] + b;
      RunAppend(a[1..], b);
      ThenAssoc(Callback(a[0].node, a[0].rel), Run(a[1..]), Run(b));
    }
  }

  /** The recursive walk is the callback applied to the nodes in depth-first
      order, stopping at the first error. */
  lemma {:induction false} VisitIsPreorderRun(n: Node, rel: seq<string>)
    ensures Visit(n, rel) == Run(Preorder(n, rel))
    decreases n, 1
  {
    if n.Dir? {
      VisitAllIsPreorderRun(n.children, rel);
      RunAppend([Visited(n, rel)], PreorderAll(n.children, rel));
    } else {
      assert Run([Visited(n, rel)]) == Then(Callback(n, rel), Plan([], Completed));
    }
  }

  lemma {:induction false} VisitAllIsPreorderRun(children: seq<Node>, parent: seq<string>)
    ensures VisitAll(children, parent) == Run(PreorderAll(children, parent))
    decreases children, 0
  {
    if children != [] {
      var c := children[0];
      VisitIsPreorderRun(c, parent + [c.name]);
      VisitAllIsPreorderRun(children[1..], parent);
      RunAppend(Preorder(c, parent + [c.name]), PreorderAll(children[1..], parent));
    }
  }

  /** When no node fails, every node contributes its entry, in order, and
      the walk completes. */
  lemma {:induction false} RunWithoutFaults(vs: seq<Visited>)
    requires forall i :: 0 <= i < |vs| ==> !vs[i].node.Faulty?
    ensures Run(vs) == Plan(EntriesOf(vs), Completed)
    decreases |vs|
  {
    if vs != [] {
      assert forall i :: 0 <= i < |vs| - 1 ==> vs[1..][i] == vs[i + 1];
      RunWithoutFaults(vs[1..]);
    }
  }

  /** Fail-fast: the nodes before the first failing one keep their entries,
      the failing one leaves what it wrote, nothing after it is added, and
      its message is the one reported. */
  lemma {:induction false} RunStopsAtFirstFault(vs: seq<Visited>, j: nat)
    requires j < |vs| && vs[j].node.Faulty?
    requires forall i :: 0 <= i < j ==> !vs[i].node.Faulty?
    ensures Run(vs) == Plan(EntriesOf(vs[..j]) + FaultEntries(vs[j].rel, vs[j].node.fault),
                            Aborted(FaultMessage(vs[j].rel, vs[j].node.fault)))
    decreases j
  {
    var tail := FaultEntries(vs[j].rel, vs[j].node.fault);
    if j == 0 {
      assert vs[..0] == [];
    } else {
      var rest := vs[1..];
      assert rest[j - 1] == vs[j];
      assert forall i :: 0 <= i < j - 1 ==> rest[i] == vs[i + 1];
      RunStopsAtFirstFault(rest, j - 1);
      var message := FaultMessage(vs[j].rel, vs[j].node.fault);
      var es := EntriesOf(rest[..j - 1]);
      RunSoundHeadThenAbort(vs, es, tail, message);
      EntriesOfCons(vs, j);
    }
  }

  /** A sound first node keeps its entry in front of an aborted rest. */
  lemma RunSoundHeadThenAbort(vs: seq<Visited>, es: seq<Entry>, tail: seq<Entry>, message: string)
    requires |vs| > 0 && !vs[0].node.Faulty?
    requires Run(vs[1..]) == Plan(es + tail, Aborted(message))
    ensures Run(vs) == Plan([EntryOf(vs[0])] + es + tail, Aborted(message))
  {
    RunOfSoundHead(vs);
    ThenKeepsHead(EntryOf(vs[0]), Run(vs[1..]), es, tail, message);
  }

  lemma ThenKeepsHead(head: Entry, rest: Plan, es: seq<Entry>, tail: seq<Entry>, message: string)
    requires rest == Plan(es + tail, Aborted(message))
    ensures Then(Plan([head], Completed), rest) == Plan([head] + es + tail, Aborted(message))
  {
    AppendAssoc([head], es, tail);
  }

  lemma RunOfSoundHead(vs: seq<Visited>)
    requires |vs| > 0 && !vs[0].node.Faulty?
    ensures Run(vs) == Then(Plan([EntryOf(vs[0])], Completed), Run(vs[1..]))
  {
    CallbackOfSoundNode(vs[0]);
  }

  lemma CallbackOfSoundNode(v: Visited)
    requires !v.node.Faulty?
    ensures Callback(v.node, v.rel) == Plan([EntryOf(v)], Completed)
  {
  }

  lemma EntriesOfCons(vs: seq<Visited>, j: nat)
    requires 0 < j <= |vs|
    requires forall i :: 0 <= i < j ==> !vs[i].node.Faulty?
    ensures EntriesOf(vs[..j]) == [EntryOf(vs[0])] + EntriesOf(vs[1..][..j - 1])
  {
    assert vs[..j][1..] == vs[1..][..j - 1];
  }

  /* ---------------------------------------------------------------------- */
  /* Properties of the plan                                                 */
  /* ---------------------------------------------------------------------- */

  /** Every name in the tree below the walked directory is a plain name. */
  predicate NamesValid(n: Node)
    decreases n
  {
    n.Dir? ==> forall i :: 0 <= i < |n.children| ==> IsName(n.children[i].name) && NamesValid(n.children[i])
  }

  /** Every node the walk visits under a tree with valid names has a relative
      path made of plain names. */
  lemma {:induction false} PreorderPathsAreNames(n: Node, rel: seq<string>)
    requires NamesValid(n)
    requires forall i :: 0 <= i < |rel| ==> IsName(rel[i])
    ensures forall k :: 0 <= k < |Preorder(n, rel)| ==>
              forall i :: 0 <= i < |Preorder(n, rel)[k].rel| ==> IsName(Preorder(n, rel)[k].rel[i])
    decreases n, 1
  {
    if n.Dir? {
      PreorderAllPathsAreNames(n.children, rel);
    }
  }

  lemma {:induction false} PreorderAllPathsAreNames(children: seq<Node>, parent: seq<string>)
    requires forall i :: 0 <= i < |children| ==> IsName(children[i].name) && NamesValid(children[i])
    requires forall i :: 0 <= i < |parent| ==> IsName(parent[i])
    ensures forall k :: 0 <= k < |PreorderAll(children, parent)| ==>
              forall i :: 0 <= i < |PreorderAll(children, parent)[k].rel| ==> IsName(PreorderAll(children, parent)[k].rel[i])
    decreases children, 0
  {
    if children != [] {
      var c := children[0];
      var p := parent + [c.name];
      PreorderPathsAreNames(c, p);
      PreorderAllPathsAreNames(children[1..], parent);
    }
  }

  /** No entry of the walk over nodes with plain-name paths is absolute. */
  lemma {:induction false} RunNamesRelative(vs: seq<Visited>)
    requires forall k :: 0 <= k < |vs| ==> forall i :: 0 <= i < |vs[k].rel| ==> IsName(vs[k].rel[i])
    ensures forall e :: e in Run(vs).entries ==> e.name != "" && e.name[0] != '/'
    decreases |vs|
  {
    if vs != [] {
      var v := vs[0];
      RunNamesRelative(vs[1..]);
    }
  }

  /** Entry names never start with a slash, so the archive never reveals
      where the directory lives on the server. */
  lemma EntryNamesRelative(tree: Node)
    requires NamesValid(tree)
    ensures forall e :: e in DownloadPlan(tree).entries ==> e.name != "" && e.name[0] != '/'
  {
    VisitIsPreorderRun(tree, []);
    PreorderPathsAreNames(tree, []);
    RunNamesRelative(Preorder(tree, []));
  }

  /** The path `filepath.Walk` passes to the callback for the node reached
      from `dirPath` through `names`: each step is `filepath.Join`. */
  function WalkPath(dirPath: string, names: seq<string>): string
    decreases |names|
  {
    if names == [] then dirPath
    else JoinPath(WalkPath(dirPath, names[..|names| - 1]), names[|names| - 1])
  }

  lemma {:induction false} WalkPathCleans(dirPath: string, names: seq<string>)
    requires forall i :: 0 <= i < |names| ==> IsName(names[i])
    ensures Clean(Parse(WalkPath(dirPath, names))) ==
            Path(Clean(Parse(dirPath)).rooted, Clean(Parse(dirPath)).segments + names)
    decreases |names|
  {
    var base := Clean(Parse(dirPath));
    if names == [] {
      assert base.segments + names == base.segments;
    } else {
      var init, name := names[..|names| - 1], names[|names| - 1];
      var w := WalkPath(dirPath, init);
      assert WalkPath(dirPath, names) == JoinPath(w, name);
      WalkPathCleans(dirPath, init);
      JoinName(w, name);
      assert base.segments + init + [name] == base.segments + names by {
        assert init + [name] == names;
        AppendAssoc(base.segments, init, [name]);
      }
    }
  }

  /** The name the callback computes with `filepath.Rel(dirPath, path)` is
      the node's relative path as the model names it. */
  lemma WalkPathRel(dirPath: string, names: seq<string>)
    requires forall i :: 0 <= i < |names| ==> IsName(names[i])
    ensures Rel(dirPath, WalkPath(dirPath, names)) == Ok(RelText(names))
  {
    var base := Clean(Parse(dirPath));
    var targ := Clean(Parse(WalkPath(dirPath, names)));
    WalkPathCleans(dirPath, names);
    if names == [] {
      assert targ == base;
    } else {
      assert targ != base by {
        assert |targ.segments| > |base.segments|;
      }
      var k := CommonPrefix(base.segments, targ.segments);
      assert targ.segments[..|base.segments|] == base.segments;
      assert k == |base.segments|;
      assert targ.segments[k..] == names;
    }
  }

  /** An empty directory downloads as the single entry `./`. */
  lemma EmptyDirectory(name: string)
    ensures DownloadPlan(Dir(name, [])) == Plan([Entry("./", Directory, "")], Completed)
  {
    assert EntryName([], Directory) == "./";
    assert VisitAll([], []) == Plan([], Completed);
  }

  /** A tree with a directory `a` holding `1.txt`, next to a file `b.txt`,
      gives the entries `./`, `a/`, `a/1.txt` and `b.txt`, in that order. */
  lemma SmallTree(name: string, one: string, b: string)
    ensures DownloadPlan(Dir(name, [Dir("a", [File("1.txt", one)]), File("b.txt", b)])) ==
            Plan([Entry("./", Directory, ""), Entry("a/", Directory, ""),
                  Entry("a/1.txt", Regular, one), Entry("b.txt", Regular, b)], Completed)
  {
    var a := Dir("a", [File("1.txt", one)]);
    var bt := File("b.txt", b);
    var top := [a, bt];
    SmallTreeSubdirectory(one);
    SmallTreeFile(b);
    assert EntryName([], Directory) == "./";
    assert [] + ["a"] == ["a"];
    assert top[1..] == [bt];
    assert VisitAll(top, []) == Then(Visit(a, ["a"]), VisitAll([bt], []));
  }

  lemma SmallTreeSubdirectory(one: string)
    ensures Visit(Dir("a", [File("1.txt", one)]), ["a"]) ==
            Plan([Entry("a/", Directory, ""), Entry("a/1.txt", Regular, one)], Completed)
  {
    var f := File("1.txt", one);
    assert EntryName(["a"], Directory) == "a/";
    assert EntryName(["a", "1.txt"], Regular) == "a/1.txt";
    assert ["a"] + ["1.txt"] == ["a", "1.txt"];
    assert [f][1..] == [];
    assert Visit(f, ["a", "1.txt"]) == Plan([Entry("a/1.txt", Regular, one)], Completed);
    assert VisitAll([f], ["a"]) == Then(Visit(f, ["a", "1.txt"]), Plan([], Completed));
  }

  lemma SmallTreeFile(b: string)
    ensures VisitAll([File("b.txt", b)], []) == Plan([Entry("b.txt", Regular, b)], Completed)
  {
    var bt := File("b.txt", b);
    assert EntryName(["b.txt"], Regular) == "b.txt";
    assert [] + ["b.txt"] == ["b.txt"] && [bt][1..] == [];
    assert VisitAll([bt], []) == Then(Visit(bt, ["b.txt"]), Plan([], Completed));
  }

  /** A symlink is added as a link entry whose body is its target, and the
      walk does not follow it, even into a directory. */
  lemma SymlinkKeptAsLink(name: string, target: string)
    ensures DownloadPlan(Dir(name, [Symlink("l", target)])) ==
            Plan([Entry("./", Directory, ""), Entry("l", Link, target)], Completed)
  {
    var l := Symlink("l", target);
    assert EntryName([], Directory) == "./";
    assert EntryName(["l"], Link) == "l";
    assert [] + ["l"] == ["l"] && [l][1..] == [];
    assert VisitAll([l], []) == Then(Visit(l, ["l"]), Plan([], Completed));
  }

  /** The walk over a run of siblings visits the first and goes on only if
      that visit completed. */
  lemma VisitAllCons(c: Node, rest: seq<Node>, parent: seq<string>)
    ensures VisitAll([c] + rest, parent) == Then(Visit(c, parent + [c.name]), VisitAll(rest, parent))
  {
    assert ([c] + rest)[0] == c && ([c] + rest)[1..] == rest;
  }

  /** A top-level file that cannot be opened leaves its empty entry and
      reports that it could not be read. */
  lemma OpenFailureVisit(b: string)
    requires IsName(b)
    ensures Visit(Faulty(b, OpenFault), [b]) ==
            Plan([Entry(b, Regular, "")], Aborted("Failed to read " + b))
  {
    assert RelText([b]) == b;
    assert FailedTo + "read " + b + "" == "Failed to read " + b;
  }

  /** A file that opens adds its entry and lets the walk go on. */
  lemma SoundFileVisit(a: string, x: string)
    requires IsName(a)
    ensures Visit(File(a, x), [a]) == Plan([Entry(a, Regular, x)], Completed)
  {
    assert RelText([a]) == a;
  }

  /** Once a file cannot be opened, the siblings after it are not visited. */
  lemma OpenFailureSkipsSiblings(b: string, rest: seq<Node>)
    requires IsName(b)
    ensures VisitAll([Faulty(b, OpenFault)] + rest, []) ==
            Plan([Entry(b, Regular, "")], Aborted("Failed to read " + b))
  {
    VisitAllCons(Faulty(b, OpenFault), rest, []);
    assert [] + [b] == [b];
    OpenFailureVisit(b);
  }

  /** A failure stops the walk: a later sibling is never added, an earlier one
      is kept, and the failing file leaves its empty entry. */
  lemma FailureStopsWalk(name: string, a: string, b: string, c: string, x: string, y: string)
    requires IsName(a) && IsName(b)
    ensures DownloadPlan(Dir(name, [File(a, x), Faulty(b, OpenFault), File(c, y)])) ==
            Plan([Entry("./", Directory, ""), Entry(a, Regular, x), Entry(b, Regular, "")],
                 Aborted("Failed to read " + b))
  {
    var tail := [Faulty(b, OpenFault), File(c, y)];
    assert [File(a, x), Faulty(b, OpenFault), File(c, y)] == [File(a, x)] + tail;
    assert tail == [Faulty(b, OpenFault)] + [File(c, y)];
    VisitAllCons(File(a, x), tail, []);
    assert [] + [a] == [a];
    SoundFileVisit(a, x);
    OpenFailureSkipsSiblings(b, [File(c, y)]);
    assert EntryName([], Directory) == "./";
  }

  /* ---------------------------------------------------------------------- */
  /* Download name                                                          */
  /* ---------------------------------------------------------------------- */

  /** The name offered for the archive: `files.zip` for the served root,
      otherwise the directory's base name with `.zip` appended. */
  function DownloadName(dirPath: string, root: string): (r: string)
    ensures |r| > 4 && r[|r| - 4..] == ".zip"
    ensures r == "files.zip" <==> dirPath == root || Base(dirPath) == "files"
  {
    if dirPath == root then "files.zip"
    else
      var r := Base(dirPath) + ".zip";
      assert r[..|r| - 4] == Base(dirPath);
      r
  }

  /** For a cleaned directory path other than the root, the name is its last
      segment with `.zip` appended, so it never contains a slash unless the
      directory is `/` itself. */
  lemma DownloadNameOfCleanPath(p: Path, root: string)
    requires IsClean(p)
    requires |p.segments| > 0
    requires Format(p) != root
    ensures DownloadName(Format(p), root) == p.segments[|p.segments| - 1] + ".zip"
    ensures NoSlash(DownloadName(Format(p), root))
  {
    BaseOfCleanPath(p);
    CleanSegmentsHaveNoSlash(p);
    var r := DownloadName(Format(p), root);
    var last := p.segments[|p.segments| - 1];
    assert r == last + ".zip";
    assert forall i :: 0 <= i < |r| ==> r[i] == if i < |last| then last[i] else ".zip"[i - |last|];
  }

  /** A subdirectory called `files` downloads under the same name as the
      root. */
  lemma FilesDirectoryLooksLikeRoot(root: string)
    requires root != "/srv/files"
    ensures DownloadName("/srv/files", root) == DownloadName(root, root)
  {
    assert "/srv" + "/" + "files" == "/srv/files";
    BaseAfterSlash("/srv", "files");
  }
}

=== FILE: media.dfy ===
/** The MIME type bucket.go derives from a file name (`getMIMEType`) and the
    way `getThumbnail` picks a thumbnail strategy from it. The extension
    table of Go's `mime.TypeByExtension` is a parameter: the model only
    fixes which text is looked up. */
module Media {
  import opened Wrappers
  import opened Text

  /* ---------------------------------------------------------------------- */
  /* getMIMEType                                                            */
  /* ---------------------------------------------------------------------- */

  predicate NoDot(s: string) {
    forall i :: 0 <= i < |s| ==> s[i] != '.'
  }

  /** The extension looked up for `path`: everything from its last `.` on, or
      nothing when there is no `.`; the `.` may sit in a directory name. */
  function Extension(path: string): (e: Option<string>)
    ensures e.None? <==> NoDot(path)
    ensures e.Some? ==> |e.value| > 0 && e.value[0] == '.' && NoDot(e.value[1..])
    ensures e.Some? ==> |e.value| <= |path| && path[|path| - |e.value|..] == e.value
  {
    var i := LastIndexOf(path, '.');
    if i < 0 then None
    else
      Some(path[i..])
  }

  /** The extension is the only suffix that starts with `.` and has no other
      `.` after it. */
  lemma ExtensionUnique(path: string, e: string)
    requires |e| > 0 && e[0] == '.' && NoDot(e[1..])
    requires |e| <= |path| && path[|path| - |e|..] == e
    ensures Extension(path) == Some(e)
  {
    var i := |path| - |e|;
    assert path[i] == '.';
    assert forall j :: i < j < |path| ==> path[j] == e[1..][j - i - 1];
    assert LastIndexOf(path, '.') == i;
  }

  /** `getMIMEType(path)`: `""` when the path has no `.`, otherwise the type
      `typeByExtension` gives for the extension. */
  function MimeType(path: string, typeByExtension: string -> string): (r: string)
    ensures NoDot(path) ==> r == ""
  {
    match Extension(path)
    case None => ""
    case Some(e) => typeByExtension(e)
  }

  /** A file `stem.ext` (with no `.` in `ext`) anywhere is typed by `.ext`,
      whatever the directories before it. */
  lemma MimeTypeOfName(dir: string, stem: string, ext: string, typeByExtension: string -> string)
    requires NoDot(ext)
    ensures MimeType(dir + stem + "." + ext, typeByExtension) == typeByExtension("." + ext)
  {
    var path := dir + stem + "." + ext;
    var e := "." + ext;
    assert e[1..] == ext;
    assert path[|path| - |e|..] == e;
    ExtensionUnique(path, e);
  }

  /** A `.` in a directory name is taken for an extension when the file name
      has none: `/a.b/c` is looked up as `.b/c`. */
  lemma DotInDirectoryName(typeByExtension: string -> string)
    ensures MimeType("/a.b/c", typeByExtension) == typeByExtension(".b/c")
  {
    var path := "/a.b/c";
    var e := ".b/c";
    assert e[1..] == "b/c";
    assert NoDot(e[1..]);
    assert path[|path| - |e|..] == e;
    ExtensionUnique(path, e);
  }

  /* ---------------------------------------------------------------------- */
  /* getThumbnail's dispatch                                                */
  /* ---------------------------------------------------------------------- */

  /** HTTP 415, Unsupported Media Type. */
  const UnsupportedMediaType: int := 415

  const SvgType: string := "image/svg+xml"

  /** What `getThumbnail` does with a file of a given MIME type. */
  datatype Thumbnail =
    | ServeAsIs                               // the SVG file itself
    | ImageThumbnail                          // a JPEG made by GraphicsMagick
    | VideoThumbnail                          // a JPEG frame taken by ffmpeg
    | Unsupported(status: int, message: string)

  /** The dispatch: SVG as is, then anything whose type starts with `image`,
      then anything starting with `video`; everything else is refused. */
  function ThumbnailFor(mimeType: string): (t: Thumbnail)
    ensures t.Unsupported? ==> t.status == UnsupportedMediaType
  {
    if mimeType == SvgType then ServeAsIs
    else if IndexOf(mimeType, "image") == 0 then ImageThumbnail
    else if IndexOf(mimeType, "video") == 0 then VideoThumbnail
    else Unsupported(UnsupportedMediaType, "Unsupported file type: " + mimeType)
  }

  /** Each outcome of the dispatch, stated through prefixes. */
  lemma ThumbnailCases(mimeType: string)
    ensures ThumbnailFor(mimeType) == ServeAsIs <==> mimeType == SvgType
    ensures ThumbnailFor(mimeType) == ImageThumbnail <==>
            mimeType != SvgType && HasPrefix(mimeType, "image")
    ensures ThumbnailFor(mimeType) == VideoThumbnail <==>
            HasPrefix(mimeType, "video")
    ensures ThumbnailFor(mimeType).Unsupported? <==>
            !HasPrefix(mimeType, "image") && !HasPrefix(mimeType, "video")
    ensures ThumbnailFor(mimeType).Unsupported? ==>
            ThumbnailFor(mimeType).message == "Unsupported file type: " + mimeType
  {
    IndexZeroIsPrefix(mimeType, "image");
    IndexZeroIsPrefix(mimeType, "video");
    if HasPrefix(mimeType, "video") {
      assert mimeType[0] == 'v';
      assert !HasPrefix(mimeType, "image");
      assert mimeType != SvgType;
    }
    if mimeType == SvgType {
      assert HasPrefix(mimeType, "image");
    }
  }

  /** A file without a `.` in its path has no type and gets no thumbnail. */
  lemma NoExtensionUnsupported(path: string, typeByExtension: string -> string)
    requires NoDot(path)
    ensures ThumbnailFor(MimeType(path, typeByExtension)) ==
            Unsupported(UnsupportedMediaType, "Unsupported file type: ")
  {
    assert IndexOf("", "image") == -1;
    assert IndexOf("", "video") == -1;
  }
}

=== FILE: natural.dfy ===
/** The natural ("file2 before file10") order of directory listings:
    `partitionByDigitness` and `FileInfoJSONSorted.Less` of bucket.go.

    A name is lower-cased and split into maximal runs of digits and of
    non-digits; the two run sequences are compared pair by pair, digit runs
    by their numeric value when both fit in a `uint64`, everything else by
    Go's string order; when no pair decides, the whole lower-cased names are
    compared with the non-strict `<=`. Directories come before everything
    else. The comparator is NOT a strict weak order: it holds in both
    directions for names equal up to case, and the overflow fallback makes
    it intransitive; both are proved below. */
module NaturalOrder {
  import opened Wrappers
  import opened Text

  /** `FileInfoJSON`: the listing record of one directory entry. */
  datatype FileInfo = FileInfo(
    name: string,
    size: int,
    modifiedAt: string,
    mimeType: string,
    isCode: bool,
    isDirectory: bool,
    isHidden: bool,
    isLink: bool)

  /* ---------------------------------------------------------------------- */
  /* Runs                                                                   */
  /* ---------------------------------------------------------------------- */

  /** A non-empty string whose characters are all digits or all non-digits. */
  predicate IsRun(p: string) {
    |p| > 0 && forall i :: 0 <= i < |p| ==> IsDigit(p[i]) == IsDigit(p[0])
  }

  /** The part starts with a digit (`unicode.IsDigit` of its first rune;
      the empty string has no digit first rune). */
  predicate StartsWithDigit(p: string) {
    |p| > 0 && IsDigit(p[0])
  }

  /** The parts glued back together. */
  function Concat(parts: seq<string>): string {
    if |parts| == 0 then "" else parts[0] + Concat(parts[1..])
  }

  lemma {:induction false} ConcatAppend(ps: seq<string>, qs: seq<string>)
    ensures Concat(ps + qs) == Concat(ps) + Concat(qs)
    decreases |ps|
  {
    if |ps| > 0 {
      assert (ps + qs)[1..] == ps[1..] + qs;
      ConcatAppend(ps[1..], qs);
    } else {
      assert ps + qs == qs;
    }
  }

  /** `parts` cuts `s` into maximal runs: they concatenate to `s`, each is a
      run, and neighbours differ in digitness. */
  ghost predicate IsRunSplit(parts: seq<string>, s: string) {
    && Concat(parts) == s
    && (forall i :: 0 <= i < |parts| ==> IsRun(parts[i]))
    && (forall i :: 0 < i < |parts| ==> StartsWithDigit(parts[i - 1]) != StartsWithDigit(parts[i]))
  }

  /** Length of the maximal run at the start of `s`. */
  function RunLength(s: string): (n: nat)
    requires |s| > 0
    ensures 1 <= n <= |s|
    ensures forall i :: 0 <= i < n ==> IsDigit(s[i]) == IsDigit(s[0])
    ensures n < |s| ==> IsDigit(s[n]) != IsDigit(s[0])
    decreases |s|
  {
    if |s| == 1 || IsDigit(s[1]) != IsDigit(s[0]) then 1 else 1 + RunLength(s[1..])
  }

  /** The maximal runs of `s`, in order; none for the empty string. */
  function Runs(s: string): (parts: seq<string>)
    ensures IsRunSplit(parts, s)
    ensures |s| > 0 ==> |parts| > 0
    decreases |s|
  {
    if |s| == 0 then []
    else
      var n := RunLength(s);
      var rest := Runs(s[n..]);
      assert s[..n] + s[n..] == s;
      assert |rest| > 0 ==> rest[0][0] == Concat(rest)[0];
      [s[..n]] + rest
  }

  /** `partitionByDigitness`: the maximal runs of `s`, or the single part
      `""` when `s` is empty (the final append of the still-empty `cur`). */
  function Partition(s: string): (parts: seq<string>)
    ensures |parts| >= 1
    ensures Concat(parts) == s
    ensures s == "" ==> parts == [""]
    ensures s != "" ==> IsRunSplit(parts, s)
  {
    if s == "" then [""] else Runs(s)
  }

  /** The first run of a split holds the first character of the string, the
      last run its last character. */
  lemma RunSplitEnds(parts: seq<string>, s: string)
    requires IsRunSplit(parts, s)
    requires |s| > 0
    ensures |parts| > 0
    ensures StartsWithDigit(parts[0]) == IsDigit(s[0])
    ensures StartsWithDigit(parts[|parts| - 1]) == IsDigit(s[|s| - 1])
  {
    var k := |parts| - 1;
    assert parts == parts[..k] + [parts[k]];
    ConcatAppend(parts[..k], [parts[k]]);
    assert Concat([parts[k]]) == parts[k] + Concat([]);
  }

  /** Two splits glue together when the strings meet at a digitness change. */
  lemma RunSplitJoin(ps: seq<string>, s: string, qs: seq<string>, t: string)
    requires IsRunSplit(ps, s) && IsRunSplit(qs, t)
    requires s == "" || t == "" || IsDigit(s[|s| - 1]) != IsDigit(t[0])
    ensures IsRunSplit(ps + qs, s + t)
  {
    ConcatAppend(ps, qs);
    if s == "" {
      assert ps == [] && ps + qs == qs;
    } else if t == "" {
      assert qs == [] && ps + qs == ps;
    } else {
      RunSplitEnds(ps, s);
      RunSplitEnds(qs, t);
    }
  }

  /** Maximal runs are unique: any split into alternating runs is `Runs`. */
  lemma {:induction false} RunSplitUnique(parts: seq<string>, s: string)
    requires IsRunSplit(parts, s)
    ensures parts == Runs(s)
    decreases |parts|
  {
    if |parts| > 0 {
      var p, tail := parts[0], Concat(parts[1..]);
      RunSplitTail(parts, s);
      FirstRunIsMaximal(parts, s);
      assert s[..|p|] == p && s[|p|..] == tail;
      RunSplitUnique(parts[1..], tail);
    }
  }

  /** Dropping the first part leaves a run split of the rest of the text. */
  lemma RunSplitTail(parts: seq<string>, s: string)
    requires IsRunSplit(parts, s) && |parts| > 0
    ensures s == parts[0] + Concat(parts[1..])
    ensures IsRunSplit(parts[1..], Concat(parts[1..]))
  {
    var rest := parts[1..];
    forall i | 0 < i < |rest|
      ensures StartsWithDigit(rest[i - 1]) != StartsWithDigit(rest[i])
    {
      assert rest[i - 1] == parts[i] && rest[i] == parts[i + 1];
    }
  }

  /** The first part of a run split is the maximal first run. */
  lemma FirstRunIsMaximal(parts: seq<string>, s: string)
    requires IsRunSplit(parts, s) && |parts| > 0
    ensures |s| > 0 && RunLength(s) == |parts[0]|
  {
    var p, rest := parts[0], parts[1..];
    var tail := Concat(rest);
    RunSplitTail(parts, s);
    assert forall i :: 0 <= i < |p| ==> s[i] == p[i];
    if |p| < |s| {
      RunSplitEnds(rest, tail);
      assert s[|p|] == tail[0];
    }
  }

  /** A run `x` placed between strings that meet it at digitness changes is
      one part of the partition, with the runs of both sides around it. */
  lemma PartitionAround(w: string, x: string, t: string)
    requires IsRun(x)
    requires w == "" || IsDigit(w[|w| - 1]) != IsDigit(x[0])
    requires t == "" || IsDigit(t[0]) != IsDigit(x[0])
    ensures Partition(w + x + t) == Runs(w) + ([x] + Runs(t))
  {
    assert IsRunSplit([x], x) by {
      assert Concat([x]) == x + Concat([]);
    }
    RunSplitJoin(Runs(w), w, [x], x);
    RunSplitJoin(Runs(w) + [x], w + x, Runs(t), t);
    RunSplitUnique(Runs(w) + [x] + Runs(t), w + x + t);
    AppendAssoc(Runs(w), [x], Runs(t));
  }

  lemma AppendAssoc<T>(a: seq<T>, b: seq<T>, c: seq<T>)
    ensures a + b + c == a + (b + c)
  {
  }

  /** Appending a character of the last run's digitness extends that run. */
  lemma ExtendLastRun(front: seq<string>, last: string, s: string, c: char)
    requires IsRunSplit(front + [last], s)
    requires StartsWithDigit(last) == IsDigit(c)
    ensures IsRunSplit(front + [last + [c]], s + [c])
  {
    var before, after := front + [last], front + [last + [c]];
    ConcatAppend(front, [last]);
    ConcatAppend(front, [last + [c]]);
    assert Concat([last]) == last + Concat([]);
    assert Concat([last + [c]]) == (last + [c]) + Concat([]);
    assert IsRun(before[|front|]);
    assert forall k :: 0 <= k < |front| ==> after[k] == before[k];
    assert forall k :: 0 < k < |after| ==> StartsWithDigit(after[k]) == StartsWithDigit(before[k]);
  }

  /** `partitionByDigitness` as written: one pass over the characters, with
      the part being built in `cur` and its digitness in `lastWasDigit`. */
  method PartitionByDigitness(s: string) returns (result: seq<string>)
    ensures result == Partition(s)
  {
    result := [];
    var cur := "";
    var lastWasDigit := false;
    var i := 0;
    while i < |s|
      invariant 0 <= i <= |s|
      invariant (i == 0) == (cur == "")
      invariant i == 0 ==> result == []
      invariant i > 0 ==> IsRunSplit(result + [cur], s[..i])
      invariant i > 0 ==> lastWasDigit == IsDigit(cur[0])
    {
      var c := s[i];
      assert s[..i + 1] == s[..i] + [c];
      if |cur| == 0 {
        cur := [c];
        lastWasDigit := IsDigit(c);
        assert Concat(result + [cur]) == cur + Concat([]);
      } else if IsDigit(c) != lastWasDigit {
        RunSplitEnds(result + [cur], s[..i]);
        assert IsRunSplit([[c]], [c]) by {
          assert Concat([[c]]) == [c] + Concat([]);
        }
        RunSplitJoin(result + [cur], s[..i], [[c]], [c]);
        assert result + [cur] + [[c]] == (result + [cur]) + [[c]];
        result := result + [cur];
        cur := [c];
        lastWasDigit := IsDigit(c);
      } else {
        ExtendLastRun(result, cur, s[..i], c);
        cur := cur + [c];
      }
      i := i + 1;
    }
    if i == 0 {
      result := [""];
    } else {
      assert s[..i] == s;
      RunSplitUnique(result + [cur], s);
      result := result + [cur];
    }
  }

  /* ---------------------------------------------------------------------- */
  /* Numeric runs                                                           */
  /* ---------------------------------------------------------------------- */

  /** The largest `uint64`. */
  const MaxUint64: nat := 0xFFFF_FFFF_FFFF_FFFF

  predicate AllDigits(s: string) {
    forall i :: 0 <= i < |s| ==> IsDigit(s[i])
  }

  /** The decimal value of a digit string, unbounded. */
  function Value(s: string): nat
    requires AllDigits(s)
    decreases |s|
  {
    if |s| == 0 then 0 else 10 * Value(s[..|s| - 1]) + (s[|s| - 1] as int - '0' as int)
  }

  /** `strconv.ParseUint(s, 10, 64)`: the value of a non-empty decimal digit
      string that fits in 64 bits; a syntax or range error otherwise. */
  function ParseUint64(s: string): (r: Option<nat>)
    ensures r.Some? <==> s != "" && AllDigits(s) && Value(s) <= MaxUint64
    ensures r.Some? ==> r.value == Value(s) && r.value <= MaxUint64
    ensures (exists i :: 0 <= i < |s| && !IsDigit(s[i])) ==> r.None?
  {
    if s != "" && AllDigits(s) && Value(s) <= MaxUint64 then Some(Value(s)) else None
  }

  /** Leading zeros do not change the parsed value: `007` parses as `7`. */
  lemma ParseIgnoresLeadingZero(s: string)
    requires s != ""
    ensures ParseUint64("0" + s) == ParseUint64(s)
  {
    if AllDigits(s) {
      ValueLeadingZero(s);
    } else {
      var i :| 0 <= i < |s| && !IsDigit(s[i]);
      assert ("0" + s)[i + 1] == s[i];
    }
  }

  lemma {:induction false} ValueLeadingZero(s: string)
    requires AllDigits(s)
    ensures AllDigits("0" + s) && Value("0" + s) == Value(s)
    decreases |s|
  {
    var z := "0" + s;
    if |s| > 0 {
      assert z[..|z| - 1] == "0" + s[..|s| - 1];
      ValueLeadingZero(s[..|s| - 1]);
    }
  }

  /* ---------------------------------------------------------------------- */
  /* The comparator                                                         */
  /* ---------------------------------------------------------------------- */

  /** One pair of runs at the same position (bucket.go:70-94): `None` when the
      pair does not decide (textually equal, or digit runs of equal value),
      otherwise `Some(answer)`. */
  function ComparePair(x: string, y: string): (r: Option<bool>)
    ensures ParseUint64(x).Some? && ParseUint64(y).Some? ==>
              (r.None? <==> ParseUint64(x) == ParseUint64(y)) &&
              (r.Some? ==> r.value == (ParseUint64(x).value < ParseUint64(y).value))
    ensures !(ParseUint64(x).Some? && ParseUint64(y).Some?) ==>
              r == if x == y then None else Some(NotAfter(x, y))
  {
    if x == y then None
    else if StartsWithDigit(x) && StartsWithDigit(y) then
      match (ParseUint64(x), ParseUint64(y))
      case (Some(u), Some(v)) => if u != v then Some(u < v) else None
      case _ => Some(NotAfter(x, y))
    else Some(NotAfter(x, y))
  }

  /** The loop over the first `min(|xs|, |ys|)` pairs: the first pair that
      decides, if any. */
  function CompareRuns(xs: seq<string>, ys: seq<string>): (r: Option<bool>)
    ensures r.None? <==> forall i :: 0 <= i < |xs| && i < |ys| ==> ComparePair(xs[i], ys[i]).None?
    ensures r.Some? ==> exists i :: 0 <= i < |xs| && i < |ys| && ComparePair(xs[i], ys[i]) == r &&
                           forall j :: 0 <= j < i ==> ComparePair(xs[j], ys[j]).None?
    decreases |xs|
  {
    if |xs| == 0 || |ys| == 0 then None
    else match ComparePair(xs[0], ys[0])
      case Some(answer) => Some(answer)
      case None =>
        assert forall i :: 0 <= i < |xs| - 1 ==> xs[1..][i] == xs[i + 1];
        assert forall i :: 0 <= i < |ys| - 1 ==> ys[1..][i] == ys[i + 1];
        CompareRuns(xs[1..], ys[1..])
  }

  /** `FileInfoJSONSorted.Less` on the two records it compares. */
  function Less(a: FileInfo, b: FileInfo): (r: bool)
    ensures a.isDirectory != b.isDirectory ==> (r <==> a.isDirectory)
    ensures a.isDirectory == b.isDirectory && Lower(a.name) == Lower(b.name) ==> r
  {
    CompareRunsSelf(Partition(Lower(a.name)));
    BelowIrreflexive(Lower(a.name));
    if a.isDirectory && !b.isDirectory then true
    else if !a.isDirectory && b.isDirectory then false
    else
      var nameA, nameB := Lower(a.name), Lower(b.name);
      match CompareRuns(Partition(nameA), Partition(nameB))
      case Some(answer) => answer
      case None => NotAfter(nameA, nameB)
  }

  /** The answer with the roles of the two sides exchanged. */
  function Flip(o: Option<bool>): Option<bool> {
    match o
    case None => None
    case Some(b) => Some(!b)
  }

  /* ---------------------------------------------------------------------- */
  /* Properties                                                             */
  /* ---------------------------------------------------------------------- */

  /** A directory is ordered before a non-directory, and never after it,
      whatever the names. */
  lemma LessDirectoriesFirst(a: FileInfo, b: FileInfo)
    requires a.isDirectory && !b.isDirectory
    ensures Less(a, b) && !Less(b, a)
  {
  }

  /** Names are compared case-insensitively: only the lower-cased names and
      the directory flags matter. */
  lemma LessIgnoresCase(a: FileInfo, b: FileInfo, a': FileInfo, b': FileInfo)
    requires a.isDirectory == a'.isDirectory && b.isDirectory == b'.isDirectory
    requires Lower(a.name) == Lower(a'.name) && Lower(b.name) == Lower(b'.name)
    ensures Less(a, b) == Less(a', b')
  {
  }

  lemma {:induction false} CompareRunsSelf(xs: seq<string>)
    ensures CompareRuns(xs, xs) == None
    decreases |xs|
  {
    if |xs| > 0 {
      CompareRunsSelf(xs[1..]);
    }
  }

  lemma ComparePairFlip(x: string, y: string)
    ensures ComparePair(y, x) == Flip(ComparePair(x, y))
  {
    BelowTrichotomy(x, y);
  }

  lemma {:induction false} CompareRunsFlip(xs: seq<string>, ys: seq<string>)
    ensures CompareRuns(ys, xs) == Flip(CompareRuns(xs, ys))
    decreases |xs|
  {
    if |xs| > 0 && |ys| > 0 {
      ComparePairFlip(xs[0], ys[0]);
      CompareRunsFlip(xs[1..], ys[1..]);
    }
  }

  /** Run pairs that are textually equal never decide. */
  lemma {:induction false} CompareRunsSkipsCommon(cs: seq<string>, xs: seq<string>, ys: seq<string>)
    ensures CompareRuns(cs + xs, cs + ys) == CompareRuns(xs, ys)
    decreases |cs|
  {
    if |cs| > 0 {
      assert (cs + xs)[1..] == cs[1..] + xs;
      assert (cs + ys)[1..] == cs[1..] + ys;
      CompareRunsSkipsCommon(cs[1..], xs, ys);
    } else {
      assert cs + xs == xs && cs + ys == ys;
    }
  }

  /** The comparator is not irreflexive: every entry is "less" than itself,
      because the final fallback is the non-strict `<=`. */
  lemma LessReflexive(a: FileInfo)
    ensures Less(a, a)
  {
    CompareRunsSelf(Partition(Lower(a.name)));
    BelowIrreflexive(Lower(a.name));
  }

  /** Any two entries are comparable: at least one direction holds. */
  lemma LessConnex(a: FileInfo, b: FileInfo)
    ensures Less(a, b) || Less(b, a)
  {
    var nameA, nameB := Lower(a.name), Lower(b.name);
    CompareRunsFlip(Partition(nameA), Partition(nameB));
    NotAfterTotal(nameA, nameB);
  }

  /** Both directions hold exactly for entries of the same kind whose names
      are equal ignoring case; for all other pairs exactly one holds. */
  lemma LessBothWaysIffSameRank(a: FileInfo, b: FileInfo)
    ensures Less(a, b) && Less(b, a) <==>
            a.isDirectory == b.isDirectory && Lower(a.name) == Lower(b.name)
  {
    var nameA, nameB := Lower(a.name), Lower(b.name);
    CompareRunsFlip(Partition(nameA), Partition(nameB));
    NotAfterTotal(nameA, nameB);
    if a.isDirectory == b.isDirectory && nameA == nameB {
      CompareRunsSelf(Partition(nameA));
    }
  }

  /** Lower-casing `w + x + t`, where `x` is a digit string, keeps `x`. */
  lemma LowerAround(w: string, x: string, t: string)
    requires AllDigits(x)
    ensures Lower(w + x + t) == Lower(w) + x + Lower(t)
  {
    LowerAppend(w + x, t);
    LowerAppend(w, x);
    assert Lower(x) == x;
  }

  /** The partition of a lower-cased `w + x + t`, where `x` is a digit run
      bordered by non-digits: the runs of `w`, then `x`, then the runs of
      `t`. */
  lemma LoweredPartition(w: string, x: string, t: string)
    requires AllDigits(x) && x != ""
    requires w == "" || !IsDigit(w[|w| - 1])
    requires t == "" || !IsDigit(t[0])
    ensures Lower(w + x + t) == Lower(w) + x + Lower(t)
    ensures Partition(Lower(w + x + t)) == Runs(Lower(w)) + ([x] + Runs(Lower(t)))
  {
    var lw, lt := Lower(w), Lower(t);
    LowerAround(w, x, t);
    assert IsRun(x);
    assert lw == "" || IsDigit(lw[|lw| - 1]) != IsDigit(x[0]) by {
      if w != "" {
        LowerCharKeepsDigitness(w[|w| - 1]);
      }
    }
    assert lt == "" || IsDigit(lt[0]) != IsDigit(x[0]) by {
      if t != "" {
        LowerCharKeepsDigitness(t[0]);
      }
    }
    PartitionAround(lw, x, lt);
  }

  /** The run pairs of two names that share a prefix `w` and then differ in
      the digit runs `x` and `y`: the shared runs are skipped and the
      comparison starts at `x` against `y`. */
  lemma SharedPrefixSkipped(w: string, x: string, y: string, t1: string, t2: string)
    requires AllDigits(x) && x != "" && AllDigits(y) && y != ""
    requires w == "" || !IsDigit(w[|w| - 1])
    requires t1 == "" || !IsDigit(t1[0])
    requires t2 == "" || !IsDigit(t2[0])
    ensures CompareRuns(Partition(Lower(w + x + t1)), Partition(Lower(w + y + t2)))
         == CompareRuns([x] + Runs(Lower(t1)), [y] + Runs(Lower(t2)))
  {
    LoweredPartition(w, x, t1);
    LoweredPartition(w, y, t2);
    CompareRunsSkipsCommon(Runs(Lower(w)), [x] + Runs(Lower(t1)), [y] + Runs(Lower(t2)));
  }

  /** At the first differing run pair, two digit runs that both fit in a
      `uint64` and differ in value decide by numeric order: `file2` comes
      before `file10`. */
  lemma NumericRunsDecide(a: FileInfo, b: FileInfo, w: string, x: string, y: string, t1: string, t2: string)
    requires a.isDirectory == b.isDirectory
    requires a.name == w + x + t1 && b.name == w + y + t2
    requires AllDigits(x) && x != "" && AllDigits(y) && y != ""
    requires w == "" || !IsDigit(w[|w| - 1])
    requires t1 == "" || !IsDigit(t1[0])
    requires t2 == "" || !IsDigit(t2[0])
    requires Value(x) <= MaxUint64 && Value(y) <= MaxUint64 && Value(x) != Value(y)
    ensures Less(a, b) <==> Value(x) < Value(y)
  {
    SharedPrefixSkipped(w, x, y, t1, t2);
    assert ComparePair(x, y) == Some(Value(x) < Value(y)) by {
      assert x != y;
      assert ParseUint64(x) == Some(Value(x)) && ParseUint64(y) == Some(Value(y));
    }
    FirstPairDecides(x, y, Runs(Lower(t1)), Runs(Lower(t2)));
  }

  /** A first pair that decides decides the whole comparison. */
  lemma FirstPairDecides(x: string, y: string, xs: seq<string>, ys: seq<string>)
    requires ComparePair(x, y).Some?
    ensures CompareRuns([x] + xs, [y] + ys) == ComparePair(x, y)
  {
    assert ([x] + xs)[0] == x && ([y] + ys)[0] == y;
  }

  /** Digit runs that differ in text but not in value (`01` against `1`) do
      not decide; with equal tails the decision falls through to `<=` on
      the whole lower-cased names. */
  lemma NumericTieFallsThrough(a: FileInfo, b: FileInfo, w: string, x: string, y: string, t: string)
    requires a.isDirectory == b.isDirectory
    requires a.name == w + x + t && b.name == w + y + t
    requires AllDigits(x) && x != "" && AllDigits(y) && y != "" && x != y
    requires w == "" || !IsDigit(w[|w| - 1])
    requires t == "" || !IsDigit(t[0])
    requires Value(x) <= MaxUint64 && Value(x) == Value(y)
    ensures Less(a, b) == NotAfter(Lower(a.name), Lower(b.name))
  {
    SharedPrefixSkipped(w, x, y, t, t);
    var rs := Runs(Lower(t));
    var xs, ys := [x] + rs, [y] + rs;
    assert xs[0] == x && ys[0] == y && xs[1..] == rs && ys[1..] == rs;
    assert ParseUint64(x) == Some(Value(x)) && ParseUint64(y) == Some(Value(y));
    assert ComparePair(x, y) == None;
    CompareRunsSelf(rs);
    assert CompareRuns(xs, ys) == None;
  }

  /** When either digit run of the first differing pair overflows a `uint64`,
      that pair is compared as text, with the non-strict `<=`. */
  lemma OversizedRunsCompareAsText(a: FileInfo, b: FileInfo, w: string, x: string, y: string, t1: string, t2: string)
    requires a.isDirectory == b.isDirectory
    requires a.name == w + x + t1 && b.name == w + y + t2
    requires AllDigits(x) && x != "" && AllDigits(y) && y != "" && x != y
    requires w == "" || !IsDigit(w[|w| - 1])
    requires t1 == "" || !IsDigit(t1[0])
    requires t2 == "" || !IsDigit(t2[0])
    requires Value(x) > MaxUint64 || Value(y) > MaxUint64
    ensures Less(a, b) == NotAfter(x, y)
  {
    SharedPrefixSkipped(w, x, y, t1, t2);
    var xs, ys := [x] + Runs(Lower(t1)), [y] + Runs(Lower(t2));
    assert xs[0] == x && ys[0] == y;
    assert ParseUint64(x).None? || ParseUint64(y).None?;
    assert ComparePair(x, y) == Some(NotAfter(x, y));
    assert CompareRuns(xs, ys) == Some(NotAfter(x, y));
  }

  /** Digit runs that differ in text but not in value (`01` against `1`) are
      skipped: the comparison goes on with the following pairs. */
  lemma NumericTieSkipped(x: string, y: string, xs: seq<string>, ys: seq<string>)
    requires AllDigits(x) && x != "" && AllDigits(y) && y != "" && x != y
    requires Value(x) <= MaxUint64 && Value(x) == Value(y)
    ensures CompareRuns([x] + xs, [y] + ys) == CompareRuns(xs, ys)
  {
    assert ([x] + xs)[1..] == xs && ([y] + ys)[1..] == ys;
    assert ParseUint64(x) == Some(Value(x)) && ParseUint64(y) == Some(Value(y));
  }

  /** At the first run pair that differs in text, a pair that is not two
      digit runs is compared as text with the non-strict `<=`, whatever
      follows. */
  lemma TextRunsDecide(a: FileInfo, b: FileInfo, cs: seq<string>, x: string, y: string, xs: seq<string>, ys: seq<string>)
    requires a.isDirectory == b.isDirectory
    requires Partition(Lower(a.name)) == cs + ([x] + xs)
    requires Partition(Lower(b.name)) == cs + ([y] + ys)
    requires x != y && !(StartsWithDigit(x) && StartsWithDigit(y))
    ensures Less(a, b) == NotAfter(x, y)
  {
    CompareRunsSkipsCommon(cs, [x] + xs, [y] + ys);
    assert ([x] + xs)[0] == x && ([y] + ys)[0] == y;
    assert ComparePair(x, y) == Some(NotAfter(x, y));
  }

  /** A lower-cased name without digits is a single run. */
  lemma DigitFreePartition(s: string)
    requires forall i :: 0 <= i < |s| ==> !IsDigit(s[i])
    ensures Partition(Lower(s)) == [Lower(s)]
  {
    var l := Lower(s);
    forall i | 0 <= i < |l|
      ensures !IsDigit(l[i])
    {
      LowerCharKeepsDigitness(s[i]);
    }
    if l != "" {
      SingleRun(l);
    }
  }

  /** A run is its own partition. */
  lemma SingleRun(l: string)
    requires IsRun(l)
    ensures Partition(l) == [l]
  {
    assert IsRunSplit([l], l) by {
      assert Concat([l]) == l + Concat([]);
    }
    RunSplitUnique([l], l);
  }

  /** Names without digits are ordered as lower-cased text, with `<=`. */
  lemma DigitFreeNamesCompareAsText(a: FileInfo, b: FileInfo)
    requires a.isDirectory == b.isDirectory
    requires forall i :: 0 <= i < |a.name| ==> !IsDigit(a.name[i])
    requires forall i :: 0 <= i < |b.name| ==> !IsDigit(b.name[i])
    ensures Less(a, b) == NotAfter(Lower(a.name), Lower(b.name))
  {
    var la, lb := Lower(a.name), Lower(b.name);
    DigitFreePartition(a.name);
    DigitFreePartition(b.name);
    if a.name != "" {
      LowerCharKeepsDigitness(a.name[0]);
    }
    SingleTextRuns(la, lb);
  }

  /** Two one-run partitions, the first not starting with a digit, compare
      as text unless they are equal. */
  lemma SingleTextRuns(x: string, y: string)
    requires !StartsWithDigit(x)
    ensures CompareRuns([x], [y]) == if x == y then None else Some(NotAfter(x, y))
  {
    assert [x][1..] == [] && [y][1..] == [];
  }

  /** `a01b2` comes before `a1b10`: the tie `01`/`1` is skipped and `2`
      against `10` decides numerically. */
  lemma TieThenNumeric()
    ensures Less(FileNamed("a01b2"), FileNamed("a1b10"))
    ensures !Less(FileNamed("a1b10"), FileNamed("a01b2"))
  {
    var p, q := ["a", "01", "b", "2"], ["a", "1", "b", "10"];
    TieThenNumericPartitions();
    TieThenNumericRuns();
    CompareRunsFlip(p, q);
  }

  lemma TieThenNumericPartitions()
    ensures Partition(Lower("a01b2")) == ["a", "01", "b", "2"]
    ensures Partition(Lower("a1b10")) == ["a", "1", "b", "10"]
  {
    LetterDigitLower("a01b2", "01", "2");
    LetterDigitLower("a1b10", "1", "10");
  }

  lemma LetterDigitLower(s: string, x: string, y: string)
    requires x != "" && AllDigits(x) && y != "" && AllDigits(y)
    requires s == "a" + x + "b" + y
    ensures Partition(Lower(s)) == ["a", x, "b", y]
  {
    assert forall i :: 0 <= i < |s| ==> !('A' <= s[i] <= 'Z');
    LowerOfLowerCase(s);
    LetterDigitRuns(s, x, y);
  }

  /** `a<x>b<y>` for digit strings `x` and `y` partitions into its four runs. */
  lemma LetterDigitRuns(s: string, x: string, y: string)
    requires x != "" && AllDigits(x) && y != "" && AllDigits(y)
    requires s == "a" + x + "b" + y
    ensures Partition(s) == ["a", x, "b", y]
  {
    assert IsRun(x) && StartsWithDigit(x);
    assert IsRun(y) && StartsWithDigit(y);
    FourRuns(s, "a", x, "b", y);
  }

  lemma TieThenNumericRuns()
    ensures CompareRuns(["a", "01", "b", "2"], ["a", "1", "b", "10"]) == Some(true)
  {
    TieStep1();
    TieStep2();
    TieStep3();
  }

  lemma TieStep1()
    ensures CompareRuns(["a", "01", "b", "2"], ["a", "1", "b", "10"]) == CompareRuns(["01", "b", "2"], ["1", "b", "10"])
  {
    var p1, q1 := ["01", "b", "2"], ["1", "b", "10"];
    assert ["a"] + p1 == ["a", "01", "b", "2"] && ["a"] + q1 == ["a", "1", "b", "10"];
    CompareRunsSkipsCommon(["a"], p1, q1);
  }

  lemma TieStep2()
    ensures CompareRuns(["01", "b", "2"], ["1", "b", "10"]) == CompareRuns(["b", "2"], ["b", "10"])
  {
    var p2, q2 := ["b", "2"], ["b", "10"];
    assert ["01"] + p2 == ["01", "b", "2"] && ["1"] + q2 == ["1", "b", "10"];
    assert Value("01") == 1 && Value("1") == 1;
    NumericTieSkipped("01", "1", p2, q2);
  }

  lemma TieStep3()
    ensures CompareRuns(["b", "2"], ["b", "10"]) == Some(true)
  {
    var two, ten := ["2"], ["10"];
    assert ["b"] + two == ["b", "2"] && ["b"] + ten == ["b", "10"];
    CompareRunsSkipsCommon(["b"], two, ten);
    TwoBeforeTen();
  }

  lemma TwoBeforeTen()
    ensures ComparePair("2", "10") == Some(true)
  {
    assert "10"[..1] == "1" && Value("10") == 10 && Value("2") == 2;
    assert ParseUint64("2") == Some(2) && ParseUint64("10") == Some(10);
  }

  /** A string made of four alternating runs partitions into them. */
  lemma FourRuns(s: string, r0: string, r1: string, r2: string, r3: string)
    requires s == r0 + r1 + r2 + r3
    requires IsRun(r0) && IsRun(r1) && IsRun(r2) && IsRun(r3)
    requires StartsWithDigit(r0) != StartsWithDigit(r1)
    requires StartsWithDigit(r1) != StartsWithDigit(r2)
    requires StartsWithDigit(r2) != StartsWithDigit(r3)
    ensures Partition(s) == [r0, r1, r2, r3]
  {
    var p := [r0, r1, r2, r3];
    var t1, t2, t3 := [r1, r2, r3], [r2, r3], [r3];
    assert p[1..] == t1 && t1[1..] == t2 && t2[1..] == t3 && t3[1..] == [];
    assert Concat(t3) == r3;
    assert Concat(t2) == r2 + r3;
    assert Concat(t1) == r1 + (r2 + r3);
    assert Concat(p) == s;
    RunSplitUnique(p, s);
  }

  /** `apple` is ordered before `Banana`, case notwithstanding, and not the
      other way round. */
  lemma AppleBeforeBanana()
    ensures Less(FileNamed("apple"), FileNamed("Banana"))
    ensures !Less(FileNamed("Banana"), FileNamed("apple"))
  {
    var a, b := FileNamed("apple"), FileNamed("Banana");
    AppleBananaNames();
    DigitFreeNamesCompareAsText(a, b);
    DigitFreeNamesCompareAsText(b, a);
    assert "apple"[0] < "banana"[0];
  }

  lemma AppleBananaNames()
    ensures Lower("apple") == "apple" && Lower("Banana") == "banana"
    ensures forall i :: 0 <= i < |"apple"| ==> !IsDigit("apple"[i])
    ensures forall i :: 0 <= i < |"Banana"| ==> !IsDigit("Banana"[i])
  {
    LowerOfLowerCase("apple");
    assert Lower("Banana")[0] == 'b';
    assert Lower("Banana") == [Lower("Banana")[0]] + Lower("anana");
    LowerOfLowerCase("anana");
  }

  /** A plain file record with the given name. */
  function FileNamed(name: string): FileInfo {
    FileInfo(name, 0, "", "", false, false, false, false)
  }

  /** `file2` is ordered strictly before `file10`. */
  lemma FileTwoBeforeFileTen()
    ensures Less(FileNamed("file2"), FileNamed("file10"))
    ensures !Less(FileNamed("file10"), FileNamed("file2"))
  {
    assert Value("2") == 2;
    assert "10"[..1] == "1";
    assert Value("10") == 10;
    assert "file2" == "file" + "2" + "";
    assert "file10" == "file" + "10" + "";
    NumericRunsDecide(FileNamed("file2"), FileNamed("file10"), "file", "2", "10", "", "");
    NumericRunsDecide(FileNamed("file10"), FileNamed("file2"), "file", "10", "2", "", "");
  }

  /** `File2` and `file2` are equal by name rank: each is "less" than the
      other. */
  lemma CaseVariantsTie()
    ensures Less(FileNamed("File2"), FileNamed("file2"))
    ensures Less(FileNamed("file2"), FileNamed("File2"))
  {
    assert Lower("File2") == Lower("file2");
    LessBothWaysIffSameRank(FileNamed("File2"), FileNamed("file2"));
  }

  function Pow10(n: nat): nat {
    if n == 0 then 1 else 10 * Pow10(n - 1)
  }

  lemma {:induction false} Pow10Add(m: nat, n: nat)
    ensures Pow10(m + n) == Pow10(m) * Pow10(n)
    decreases m
  {
    if m > 0 {
      Pow10Add(m - 1, n);
    }
  }

  /** A digit string without a leading zero is worth at least 10^(length-1). */
  lemma {:induction false} ValueLowerBound(s: string)
    requires AllDigits(s) && |s| > 0 && s[0] != '0'
    ensures Value(s) >= Pow10(|s| - 1)
    decreases |s|
  {
    if |s| > 1 {
      ValueLowerBound(s[..|s| - 1]);
    }
  }

  /** A twenty-one digit name, too large for a `uint64`. */
  const Huge: string := "100000000000000000000"

  /** `Huge` meets the requirements of `LessNotTransitive`. */
  lemma HugeOverflows()
    ensures AllDigits(Huge) && HasPrefix(Huge, "10") && |Huge| > 2 && Value(Huge) > MaxUint64
  {
    assert |Huge| == 21;
    ValueLowerBound(Huge);
    Pow10Add(10, 10);
    Pow10Add(5, 5);
    assert Pow10(5) == 100000;
  }

  lemma BigTextOrder(big: string)
    requires HasPrefix(big, "10") && |big| > 2
    ensures NotAfter("10", big) && NotAfter(big, "2") && !NotAfter("2", big)
  {
    var rest := big[2..];
    assert big[..2] == "10";
    assert big[0] == '1' && big[1] == '0';
    assert big[1..][1..] == rest;
    assert !Below(rest, "");
    assert !Below(big[1..], "10"[1..]);
  }

  /** The comparator is not transitive: for a digit name `big` that starts
      with `10`, is longer than that, and overflows a `uint64` (`Huge` is one), `2` is before `10`
      numerically, `10` is before `big` as text, yet `big` is before `2` as
      text, and `2` is not before `big`. */
  lemma LessNotTransitive(big: string)
    requires AllDigits(big) && HasPrefix(big, "10") && |big| > 2 && Value(big) > MaxUint64
    ensures Less(FileNamed("2"), FileNamed("10"))
    ensures Less(FileNamed("10"), FileNamed(big))
    ensures Less(FileNamed(big), FileNamed("2"))
    ensures !Less(FileNamed("2"), FileNamed(big))
  {
    TwoBeforeTenNumerically();
    TenBeforeBig(big);
    BigBeforeTwo(big);
  }

  lemma TenBeforeBig(big: string)
    requires AllDigits(big) && HasPrefix(big, "10") && |big| > 2 && Value(big) > MaxUint64
    ensures Less(FileNamed("10"), FileNamed(big))
  {
    BigTextOrder(big);
    assert AllDigits("10");
    OversizedPair("10", big);
  }

  lemma BigBeforeTwo(big: string)
    requires AllDigits(big) && HasPrefix(big, "10") && |big| > 2 && Value(big) > MaxUint64
    ensures Less(FileNamed(big), FileNamed("2"))
    ensures !Less(FileNamed("2"), FileNamed(big))
  {
    BigTextOrder(big);
    assert AllDigits("2");
    assert big != "2";
    OversizedPair(big, "2");
    OversizedPair("2", big);
  }

  lemma TwoBeforeTenNumerically()
    ensures Less(FileNamed("2"), FileNamed("10"))
  {
    assert "10"[..1] == "1";
    assert Value("2") == 2 && Value("10") == 10;
    assert "2" == "" + "2" + "";
    assert "10" == "" + "10" + "";
    NumericRunsDecide(FileNamed("2"), FileNamed("10"), "", "2", "10", "", "");
  }

  /** Two distinct whole-digit names, one of them too large for a `uint64`,
      compare as text. */
  lemma OversizedPair(x: string, y: string)
    requires AllDigits(x) && x != "" && AllDigits(y) && y != "" && x != y
    requires Value(x) > MaxUint64 || Value(y) > MaxUint64
    ensures Less(FileNamed(x), FileNamed(y)) == NotAfter(x, y)
  {
    assert x == "" + x + "" && y == "" + y + "";
    OversizedRunsCompareAsText(FileNamed(x), FileNamed(y), "", x, y, "", "");
  }
}

=== FILE: paths.dfy ===
/** Slash-separated paths as Go's `path` and `path/filepath` packages treat
    them on a Unix system (`path.Clean`, `path.Join`, `path.Base`,
    `filepath.Rel`), and `normalizePathUnderRoot` of bucket.go, which uses
    them to keep every request inside the served root.

    A path string is parsed into a rooted flag and its slash-separated
    segments; cleaning is a left-to-right pass over the segments with a stack,
    exactly as `path.Clean` does with its output buffer. */
module Paths {
  import opened Wrappers
  import opened Text

  /** A path: rooted (leading `/`) or not, and its segments. */
  datatype Path = Path(rooted: bool, segments: seq<string>)

  predicate NoSlash(s: string) {
    forall i :: 0 <= i < |s| ==> s[i] != '/'
  }

  /** A segment that `path.Clean` keeps as it is. */
  predicate IsName(s: string) {
    s != "" && s != "." && s != ".." && NoSlash(s)
  }

  /* ---------------------------------------------------------------------- */
  /* Splitting and joining                                                  */
  /* ---------------------------------------------------------------------- */

  /** `strings.Split(s, "/")`: the pieces between slashes. */
  function Split(s: string): (parts: seq<string>)
    ensures |parts| >= 1
    ensures forall i :: 0 <= i < |parts| ==> NoSlash(parts[i])
    ensures JoinSlash(parts) == s
    decreases |s|
  {
    if |s| == 0 then [""]
    else if s[0] == '/' then
      var rest := Split(s[1..]);
      assert ([""] + rest)[1..] == rest;
      assert s == "" + "/" + s[1..];
      [""] + rest
    else
      var rest := Split(s[1..]);
      var parts := [[s[0]] + rest[0]] + rest[1..];
      assert parts[1..] == rest[1..];
      assert s == [s[0]] + s[1..];
      parts
  }

  /** `strings.Join(segs, "/")`. */
  function JoinSlash(segs: seq<string>): string
    decreases |segs|
  {
    if |segs| == 0 then ""
    else if |segs| == 1 then segs[0]
    else segs[0] + "/" + JoinSlash(segs[1..])
  }

  /** A slash splits a string into the pieces of either side. */
  lemma {:induction false} SplitAround(a: string, b: string)
    ensures Split(a + "/" + b) == Split(a) + Split(b)
    decreases |a|
  {
    var s := a + "/" + b;
    if |a| == 0 {
      assert s == "/" + b && s[1..] == b;
    } else {
      assert s[1..] == a[1..] + "/" + b;
      SplitAround(a[1..], b);
      SplitCons(s);
      SplitCons(a);
      ConsPieceAppend(a[0], Split(a[1..]), Split(b));
    }
  }

  /** One step of `Split`, named so that callers need not unfold it. */
  lemma SplitCons(s: string)
    requires s != ""
    ensures Split(s) == ConsPiece(s[0], Split(s[1..]))
  {
  }

  /** Putting a character in front of the pieces of a string. */
  function ConsPiece(c: char, rest: seq<string>): seq<string>
    requires |rest| >= 1
  {
    if c == '/' then [""] + rest else [[c] + rest[0]] + rest[1..]
  }

  lemma ConsPieceAppend(c: char, ra: seq<string>, rb: seq<string>)
    requires |ra| >= 1
    ensures ConsPiece(c, ra + rb) == ConsPiece(c, ra) + rb
  {
    if c != '/' {
      assert (ra + rb)[1..] == ra[1..] + rb;
    }
  }

  lemma {:induction false} SplitNoSlash(s: string)
    requires NoSlash(s)
    ensures Split(s) == [s]
    decreases |s|
  {
    if |s| > 0 {
      SplitNoSlash(s[1..]);
      assert [s[0]] + s[1..] == s;
    }
  }

  /** Splitting undoes joining, for slash-free segments. */
  lemma {:induction false} SplitJoin(segs: seq<string>)
    requires |segs| >= 1
    requires forall i :: 0 <= i < |segs| ==> NoSlash(segs[i])
    ensures Split(JoinSlash(segs)) == segs
    decreases |segs|
  {
    if |segs| == 1 {
      SplitNoSlash(segs[0]);
    } else {
      SplitAround(segs[0], JoinSlash(segs[1..]));
      SplitJoin(segs[1..]);
      SplitNoSlash(segs[0]);
    }
  }

  lemma {:induction false} JoinSlashHead(segs: seq<string>)
    requires |segs| >= 1
    ensures HasPrefix(JoinSlash(segs), segs[0])
  {
    if |segs| > 1 {
      assert JoinSlash(segs) == segs[0] + ("/" + JoinSlash(segs[1..]));
    }
  }

  /** A join starts with the first segment's first character. */
  lemma JoinSlashFirst(segs: seq<string>)
    requires |segs| >= 1 && segs[0] != ""
    ensures JoinSlash(segs) != "" && JoinSlash(segs)[0] == segs[0][0]
  {
    JoinSlashHead(segs);
  }

  /** A join ends with the last segment's last character. */
  lemma JoinSlashLast(segs: seq<string>)
    requires |segs| >= 1 && segs[|segs| - 1] != ""
    ensures var j, l := JoinSlash(segs), segs[|segs| - 1];
            j != "" && j[|j| - 1] == l[|l| - 1]
  {
    if |segs| >= 2 {
      JoinSlashSnoc(segs);
    }
  }

  lemma {:induction false} JoinSlashSnoc(segs: seq<string>)
    requires |segs| >= 2
    ensures JoinSlash(segs) == JoinSlash(segs[..|segs| - 1]) + "/" + segs[|segs| - 1]
    decreases |segs|
  {
    if |segs| > 2 {
      JoinSlashSnoc(segs[1..]);
      assert segs[1..][..|segs| - 2] == segs[..|segs| - 1][1..];
    }
  }

  /* ---------------------------------------------------------------------- */
  /* path.Clean                                                             */
  /* ---------------------------------------------------------------------- */

  /** Parses a path string. */
  function Parse(s: string): Path {
    Path(|s| > 0 && s[0] == '/', Split(s))
  }

  /** One step of `path.Clean`: empty and `.` segments vanish, `..` cancels
      the previous real segment, is dropped at the root of a rooted path and
      is kept when a relative path has nothing left to cancel. */
  function Push(rooted: bool, stack: seq<string>, seg: string): seq<string> {
    if seg == "" || seg == "." then stack
    else if seg == ".." then
      if |stack| > 0 && stack[|stack| - 1] != ".." then stack[..|stack| - 1]
      else if rooted then stack
      else stack + [".."]
    else stack + [seg]
  }

  /** `Push` applied to `segs` from left to right. */
  function Fold(rooted: bool, stack: seq<string>, segs: seq<string>): seq<string>
    decreases |segs|
  {
    if |segs| == 0 then stack
    else Push(rooted, Fold(rooted, stack, segs[..|segs| - 1]), segs[|segs| - 1])
  }

  /** A path as `path.Clean` leaves it: every segment is a name, except a
      leading block of `..` in a relative path. */
  ghost predicate IsClean(p: Path) {
    forall i :: 0 <= i < |p.segments| ==> CleanAt(p.rooted, p.segments, i)
  }

  /** Segment `i` is a name, or one of the leading `..` of a relative path. */
  predicate CleanAt(rooted: bool, segs: seq<string>, i: int)
    requires 0 <= i < |segs|
  {
    IsName(segs[i]) || (segs[i] == ".." && !rooted && (i == 0 || segs[i - 1] == ".."))
  }

  lemma {:induction false} FoldAppend(rooted: bool, stack: seq<string>, xs: seq<string>, ys: seq<string>)
    ensures Fold(rooted, stack, xs + ys) == Fold(rooted, Fold(rooted, stack, xs), ys)
    decreases |ys|
  {
    if |ys| == 0 {
      assert xs + ys == xs;
    } else {
      assert (xs + ys)[..|xs + ys| - 1] == xs + ys[..|ys| - 1];
      FoldAppend(rooted, stack, xs, ys[..|ys| - 1]);
    }
  }

  lemma PushKeepsClean(rooted: bool, stack: seq<string>, seg: string)
    requires IsClean(Path(rooted, stack))
    requires NoSlash(seg)
    ensures IsClean(Path(rooted, Push(rooted, stack, seg)))
  {
    var r := Push(rooted, stack, seg);
    if seg == ".." && |stack| > 0 && stack[|stack| - 1] != ".." {
      CleanPrefix(Path(rooted, stack), |stack| - 1);
    } else if r == stack + [seg] {
      forall i | 0 <= i < |r|
        ensures CleanAt(rooted, r, i)
      {
        if i < |stack| {
          assert CleanAt(rooted, stack, i);
          assert r[i] == stack[i];
          assert i > 0 ==> r[i - 1] == stack[i - 1];
        }
      }
    }
  }

  /** Every prefix of a clean path is clean. */
  lemma CleanPrefix(p: Path, n: nat)
    requires IsClean(p)
    requires n <= |p.segments|
    ensures IsClean(Path(p.rooted, p.segments[..n]))
  {
    var q := p.segments[..n];
    forall i | 0 <= i < n
      ensures CleanAt(p.rooted, q, i)
    {
      assert CleanAt(p.rooted, p.segments, i);
      assert q[i] == p.segments[i];
      assert i > 0 ==> q[i - 1] == p.segments[i - 1];
    }
  }

  lemma {:induction false} FoldKeepsClean(rooted: bool, stack: seq<string>, segs: seq<string>)
    requires IsClean(Path(rooted, stack))
    requires forall i :: 0 <= i < |segs| ==> NoSlash(segs[i])
    ensures IsClean(Path(rooted, Fold(rooted, stack, segs)))
    decreases |segs|
  {
    if |segs| > 0 {
      FoldKeepsClean(rooted, stack, segs[..|segs| - 1]);
      PushKeepsClean(rooted, Fold(rooted, stack, segs[..|segs| - 1]), segs[|segs| - 1]);
    }
  }

  lemma CleaningGivesClean(p: Path)
    ensures (forall i :: 0 <= i < |p.segments| ==> NoSlash(p.segments[i])) ==>
            IsClean(Path(p.rooted, Fold(p.rooted, [], p.segments)))
  {
    if forall i :: 0 <= i < |p.segments| ==> NoSlash(p.segments[i]) {
      FoldKeepsClean(p.rooted, [], p.segments);
    }
  }

  /** A clean path is a fixed point of the cleaning pass. */
  lemma {:induction false} FoldOfClean(p: Path)
    requires IsClean(p)
    ensures Fold(p.rooted, [], p.segments) == p.segments
    decreases |p.segments|
  {
    var segs := p.segments;
    if |segs| > 0 {
      var init, last := segs[..|segs| - 1], segs[|segs| - 1];
      CleanPrefix(p, |segs| - 1);
      FoldOfClean(Path(p.rooted, init));
      assert init + [last] == segs;
      assert CleanAt(p.rooted, segs, |segs| - 1);
      if last == ".." {
        assert |init| == 0 || init[|init| - 1] == "..";
      }
    }
  }

  /** `path.Clean` on parsed paths. */
  function Clean(p: Path): (c: Path)
    ensures c.rooted == p.rooted
    ensures (forall i :: 0 <= i < |p.segments| ==> NoSlash(p.segments[i])) ==> IsClean(c)
  {
    CleaningGivesClean(p);
    Path(p.rooted, Fold(p.rooted, [], p.segments))
  }

  /** Prints a path; the empty relative path prints as `.`. */
  function Format(p: Path): string {
    if p.rooted then "/" + JoinSlash(p.segments)
    else if |p.segments| == 0 then "."
    else JoinSlash(p.segments)
  }

  /** `path.Clean` on strings. */
  function CleanString(s: string): (r: string)
    ensures r != ""
    ensures Clean(Parse(r)) == Clean(Parse(s))
  {
    var c := Clean(Parse(s));
    FormatNonEmpty(c);
    ParseFormatRoundTrip(c);
    Format(c)
  }

  /** A clean path never prints as the empty string. */
  lemma FormatNonEmpty(p: Path)
    requires IsClean(p)
    ensures Format(p) != ""
  {
    if !p.rooted && |p.segments| > 0 {
      JoinSlashHead(p.segments);
      assert CleanAt(p.rooted, p.segments, 0);
    }
  }

  lemma SplitDot()
    ensures Split(".") == ["."]
  {
    SplitNoSlash(".");
  }

  lemma CleanSegmentsHaveNoSlash(p: Path)
    requires IsClean(p)
    ensures forall i :: 0 <= i < |p.segments| ==> NoSlash(p.segments[i])
  {
    forall i | 0 <= i < |p.segments|
      ensures NoSlash(p.segments[i])
    {
      assert CleanAt(p.rooted, p.segments, i);
      if !IsName(p.segments[i]) {
        assert p.segments[i] == "..";
      }
    }
  }

  /** Printing a clean path and cleaning it again gives the path back. */
  lemma ParseFormatRoundTrip(p: Path)
    requires IsClean(p)
    ensures Clean(Parse(Format(p))) == p
  {
    var segs := p.segments;
    FoldOfClean(p);
    if p.rooted {
      var j := JoinSlash(segs);
      assert Format(p) == "" + "/" + j;
      SplitAround("", j);
      if |segs| == 0 {
        assert Split(j) == [""];
        FoldAppend(true, [], [""], [""]);
      } else {
        CleanSegmentsHaveNoSlash(p);
        SplitJoin(segs);
        FoldAppend(true, [], [""], segs);
      }
    } else if |segs| == 0 {
      SplitDot();
    } else {
      CleanSegmentsHaveNoSlash(p);
      SplitJoin(segs);
      JoinSlashHead(segs);
      assert CleanAt(false, segs, 0);
      assert Format(p)[0] == segs[0][0];
    }
  }

  /** `path.Clean` is idempotent. */
  lemma CleanStringIdempotent(s: string)
    ensures CleanString(CleanString(s)) == CleanString(s)
  {
    ParseFormatRoundTrip(Clean(Parse(s)));
  }

  /** A path string ending in `"/" + name` cleans to the cleaned rest of the
      string followed by `name`. */
  lemma CleanAppendName(s: string, name: string)
    requires s != ""
    requires IsName(name)
    ensures Clean(Parse(s + "/" + name)) ==
            Path(Clean(Parse(s)).rooted, Clean(Parse(s)).segments + [name])
  {
    SplitAround(s, name);
    SplitNoSlash(name);
    assert (s + "/" + name)[0] == s[0];
    FoldAppend(Parse(s).rooted, [], Split(s), [name]);
    assert [name][..0] == [];
  }

  /** `name/..` cancels `name`: appending both to a non-empty path leaves its
      cleaned form unchanged. */
  lemma CleanAppendDotDot(s: string, name: string)
    requires s != ""
    requires IsName(name)
    ensures Clean(Parse(s + "/" + name + "/..")) == Clean(Parse(s))
  {
    var rooted := Parse(s).rooted;
    var t := s + "/" + name;
    var full := s + "/" + name + "/..";
    assert full == t + "/" + "..";
    assert full[0] == s[0];
    SplitAppendNameDotDot(s, name);
    FoldAppend(rooted, [], Split(s), [name, ".."]);
    FoldNameDotDot(rooted, Fold(rooted, [], Split(s)), name);
  }

  lemma SplitAppendNameDotDot(s: string, name: string)
    requires NoSlash(name)
    ensures Split(s + "/" + name + "/" + "..") == Split(s) + [name, ".."]
  {
    SplitAround(s, name);
    SplitAround(s + "/" + name, "..");
    SplitNoSlash(name);
    SplitNoSlash("..");
  }

  lemma FoldNameDotDot(rooted: bool, stack: seq<string>, name: string)
    requires IsName(name)
    ensures Fold(rooted, stack, [name, ".."]) == stack
  {
    var pair: seq<string> := [name, ".."];
    var single: seq<string> := [name];
    assert pair[..1] == single && single[..0] == [];
    assert Fold(rooted, stack, single) == stack + [name];
    assert (stack + [name])[..|stack|] == stack;
  }

  /** `..` at the root stays at the root: `/..` cleans to `/`. */
  lemma CleanRootDotDot()
    ensures Clean(Parse("/..")) == Path(true, [])
  {
    var pair: seq<string> := ["", ".."];
    assert Split("/..") == pair by {
      SplitAround("", "..");
      SplitNoSlash("..");
      assert "" + "/" + ".." == "/..";
    }
    assert Fold(true, [], pair) == [] by {
      var empty: seq<string> := [""];
      assert pair[..1] == empty && empty[..0] == [];
      assert Fold(true, [], empty) == [];
    }
  }

  /** A relative `..` has nothing to cancel and is kept. */
  lemma CleanRelativeDotDot()
    ensures Clean(Parse("..")) == Path(false, [".."])
  {
    SplitNoSlash("..");
    var single: seq<string> := [".."];
    assert single[..0] == [];
  }

  /* ---------------------------------------------------------------------- */
  /* path.Join                                                              */
  /* ---------------------------------------------------------------------- */

  /** `path.Join(a, b)` (and `filepath.Join` on Unix): the non-empty
      arguments joined with a slash and cleaned; `""` if both are empty. */
  function JoinPath(a: string, b: string): (r: string)
    ensures r == "" <==> a == "" && b == ""
    ensures r != "" ==> CleanString(r) == r
  {
    if a == "" && b == "" then ""
    else if a == "" then CleanString(b)
    else if b == "" then CleanString(a)
    else CleanString(a + "/" + b)
  }

  /* ---------------------------------------------------------------------- */
  /* filepath.Rel                                                           */
  /* ---------------------------------------------------------------------- */

  /** Length of the longest common prefix. */
  function CommonPrefix(xs: seq<string>, ys: seq<string>): (k: nat)
    ensures k <= |xs| && k <= |ys|
    ensures xs[..k] == ys[..k]
    ensures k < |xs| && k < |ys| ==> xs[k] != ys[k]
    decreases |xs|
  {
    if |xs| == 0 || |ys| == 0 || xs[0] != ys[0] then 0
    else
      var k := CommonPrefix(xs[1..], ys[1..]);
      assert xs[..k + 1] == [xs[0]] + xs[1..][..k];
      assert ys[..k + 1] == [ys[0]] + ys[1..][..k];
      k + 1
  }

  /** `n` copies of `..`. */
  function Ups(n: nat): (r: seq<string>)
    ensures |r| == n
    ensures forall i :: 0 <= i < n ==> r[i] == ".."
  {
    if n == 0 then [] else [".."] + Ups(n - 1)
  }

  /** `filepath.Rel` on two clean paths, as segments: `None` when the target
      cannot be expressed relative to the base (one rooted and the other
      not, or a base segment `..` past the common prefix); otherwise one
      `..` per remaining base segment followed by the remaining target
      segments, where a relative target `.` stays as a trailing `.`. */
  function RelSegments(base: Path, targ: Path): Option<seq<string>> {
    if targ == base then Some([])
    else if base.rooted != targ.rooted then None
    else
      var k := CommonPrefix(base.segments, targ.segments);
      if k < |base.segments| && base.segments[k] == ".." then None
      else if k < |base.segments| then
        var rest := if !targ.rooted && targ.segments == [] then ["."] else targ.segments[k..];
        Some(Ups(|base.segments| - k) + rest)
      else Some(targ.segments[k..])
  }

  /** Prints a relative path; no segments print as `.`. */
  function RelText(segs: seq<string>): string {
    if segs == [] then "." else JoinSlash(segs)
  }

  /** When `filepath.Rel` relates two clean paths: they are equal, or both
      rooted or both relative with no base `..` at the point where they
      part. */
  predicate RelDefined(base: Path, targ: Path) {
    targ == base ||
    (base.rooted == targ.rooted &&
     var k := CommonPrefix(base.segments, targ.segments);
     !(k < |base.segments| && base.segments[k] == ".."))
  }

  /** `filepath.Rel(basepath, targpath)` on Unix: both are cleaned, then
      related as above. */
  function Rel(basepath: string, targpath: string): (r: Result<string>)
    ensures r.Ok? <==> RelDefined(Clean(Parse(basepath)), Clean(Parse(targpath)))
    ensures r.Ok? ==> CleanString(JoinPath(basepath, r.value)) == CleanString(targpath)
  {
    match RelSegments(Clean(Parse(basepath)), Clean(Parse(targpath)))
    case None => Err("Rel: can't make " + targpath + " relative to " + basepath)
    case Some(segs) =>
      RelJoinsBack(basepath, targpath);
      Ok(RelText(segs))
  }

  /** Pushing one `..` per trailing name of the stack removes those names. */
  lemma {:induction false} FoldUps(rooted: bool, stack: seq<string>, n: nat)
    requires n <= |stack|
    requires forall i :: |stack| - n <= i < |stack| ==> IsName(stack[i])
    ensures Fold(rooted, stack, Ups(n)) == stack[..|stack| - n]
    decreases n
  {
    if n == 0 {
      assert stack[..|stack|] == stack;
    } else {
      var up: seq<string> := [".."];
      assert Ups(n) == up + Ups(n - 1);
      FoldAppend(rooted, stack, up, Ups(n - 1));
      assert up[..0] == [];
      var popped := stack[..|stack| - 1];
      assert Fold(rooted, stack, up) == popped;
      assert popped[..|popped| - (n - 1)] == stack[..|stack| - n];
      FoldUps(rooted, popped, n - 1);
    }
  }

  /** Cleaning resumes where it left off: pushing the rest of a clean path
      onto its prefix gives the path back. */
  lemma FoldResumes(p: Path, k: nat)
    requires IsClean(p)
    requires k <= |p.segments|
    ensures Fold(p.rooted, p.segments[..k], p.segments[k..]) == p.segments
  {
    FoldOfClean(p);
    CleanPrefix(p, k);
    FoldOfClean(Path(p.rooted, p.segments[..k]));
    assert p.segments[..k] + p.segments[k..] == p.segments;
    FoldAppend(p.rooted, [], p.segments[..k], p.segments[k..]);
  }

  /** Past a segment other than `..`, a clean path holds only names. */
  lemma {:induction false} NamesAfter(p: Path, k: nat, i: nat)
    requires IsClean(p)
    requires k <= i < |p.segments| && p.segments[k] != ".."
    ensures IsName(p.segments[i])
    decreases i - k
  {
    assert CleanAt(p.rooted, p.segments, i);
    if i > k {
      NamesAfter(p, k, i - 1);
    }
  }

  /** A segment of a relative path: `..`, `.` or a name. */
  predicate RelPiece(s: string) {
    s == ".." || s == "." || IsName(s)
  }

  /** Pushing the relative segments onto the base gives the target back:
      `RelSegments` is undone by joining. */
  lemma RelSegmentsJoinBack(base: Path, targ: Path)
    requires IsClean(base) && IsClean(targ)
    requires RelSegments(base, targ).Some?
    ensures base.rooted == targ.rooted
    ensures Fold(base.rooted, base.segments, RelSegments(base, targ).value) == targ.segments
    ensures forall i :: 0 <= i < |RelSegments(base, targ).value| ==> RelPiece(RelSegments(base, targ).value[i])
  {
    if targ != base {
      var k := CommonPrefix(base.segments, targ.segments);
      if k < |base.segments| {
        RelClimbsBack(base, targ, k, RelSegments(base, targ).value);
      } else {
        RelDescends(base, targ, k);
      }
    }
  }

  /** The target below the base: the remaining target segments. */
  lemma RelDescends(base: Path, targ: Path, k: nat)
    requires IsClean(base) && IsClean(targ) && base.rooted == targ.rooted
    requires k == |base.segments| <= |targ.segments|
    requires base.segments == targ.segments[..k]
    ensures Fold(base.rooted, base.segments, targ.segments[k..]) == targ.segments
    ensures forall i :: 0 <= i < |targ.segments[k..]| ==> RelPiece(targ.segments[k..][i])
  {
    FoldResumes(targ, k);
    forall i | 0 <= i < |targ.segments[k..]|
      ensures RelPiece(targ.segments[k..][i])
    {
      assert CleanAt(targ.rooted, targ.segments, k + i);
    }
  }

  /** The target beside the base: climb out of the base's names past the
      common prefix, then descend. */
  lemma RelClimbsBack(base: Path, targ: Path, k: nat, segs: seq<string>)
    requires IsClean(base) && IsClean(targ) && base.rooted == targ.rooted
    requires k < |base.segments| && k <= |targ.segments|
    requires base.segments[..k] == targ.segments[..k]
    requires base.segments[k] != ".."
    requires segs == Ups(|base.segments| - k) +
                     if !targ.rooted && targ.segments == [] then ["."] else targ.segments[k..]
    ensures Fold(base.rooted, base.segments, segs) == targ.segments
    ensures forall i :: 0 <= i < |segs| ==> RelPiece(segs[i])
  {
    var rest := if !targ.rooted && targ.segments == [] then ["."] else targ.segments[k..];
    FoldClimb(base, k, rest);
    if !targ.rooted && targ.segments == [] {
      var dot: seq<string> := ["."];
      assert dot[..0] == [];
      assert Fold(base.rooted, [], dot) == [];
    } else {
      FoldResumes(targ, k);
    }
    RelClimbPieces(targ, k, |base.segments| - k, rest, segs);
  }

  /** Climbing out of the names past position `k` of a clean path. */
  lemma FoldClimb(base: Path, k: nat, rest: seq<string>)
    requires IsClean(base)
    requires k < |base.segments| && base.segments[k] != ".."
    ensures Fold(base.rooted, base.segments, Ups(|base.segments| - k) + rest) ==
            Fold(base.rooted, base.segments[..k], rest)
  {
    var st, n := base.segments, |base.segments| - k;
    assert Fold(base.rooted, st, Ups(n)) == st[..k] by {
      forall i | |st| - n <= i < |st|
        ensures IsName(st[i])
      {
        NamesAfter(base, k, i);
      }
      FoldUps(base.rooted, st, n);
    }
    FoldAppend(base.rooted, st, Ups(n), rest);
  }

  lemma RelClimbPieces(targ: Path, k: nat, n: nat, rest: seq<string>, segs: seq<string>)
    requires IsClean(targ) && k <= |targ.segments|
    requires rest == ["."] || rest == targ.segments[k..]
    requires segs == Ups(n) + rest
    ensures forall i :: 0 <= i < |segs| ==> RelPiece(segs[i])
  {
    forall i | 0 <= i < |segs|
      ensures RelPiece(segs[i])
    {
      if i >= n && rest == targ.segments[k..] {
        assert segs[i] == targ.segments[k + i - n];
        assert CleanAt(targ.rooted, targ.segments, k + i - n);
      }
    }
  }

  /** Printing relative segments and splitting the text again changes
      nothing the cleaning pass can see; the text never starts with `/`. */
  lemma RelTextSplits(rooted: bool, stack: seq<string>, segs: seq<string>)
    requires forall i :: 0 <= i < |segs| ==> RelPiece(segs[i])
    ensures Fold(rooted, stack, Split(RelText(segs))) == Fold(rooted, stack, segs)
    ensures RelText(segs) != "" && RelText(segs)[0] != '/'
  {
    if segs == [] {
      SplitDot();
      var dot: seq<string> := ["."];
      assert dot[..0] == [];
    } else {
      SplitJoin(segs);
      JoinSlashHead(segs);
      assert RelPiece(segs[0]);
    }
  }

  /** `filepath.Rel`'s promise: joining the base with the relative path
      gives back the target, up to cleaning. */
  lemma RelJoinsBack(basepath: string, targpath: string)
    requires RelSegments(Clean(Parse(basepath)), Clean(Parse(targpath))).Some?
    ensures var segs := RelSegments(Clean(Parse(basepath)), Clean(Parse(targpath))).value;
            CleanString(JoinPath(basepath, RelText(segs))) == CleanString(targpath)
  {
    var base, targ := Clean(Parse(basepath)), Clean(Parse(targpath));
    var segs := RelSegments(base, targ).value;
    var text := RelText(segs);
    RelSegmentsJoinBack(base, targ);
    RelTextSplits(base.rooted, base.segments, segs);
    if basepath == "" {
      assert Split("") == [""];
      assert base == Path(false, []);
      assert Clean(Parse(text)) == targ;
    } else {
      SplitAround(basepath, text);
      assert (basepath + "/" + text)[0] == basepath[0];
      FoldAppend(base.rooted, [], Split(basepath), Split(text));
      assert Clean(Parse(basepath + "/" + text)) == targ;
    }
  }

  /* ---------------------------------------------------------------------- */
  /* normalizePathUnderRoot                                                 */
  /* ---------------------------------------------------------------------- */

  /** `p` is `base` itself or lies below it. */
  ghost predicate Within(base: Path, p: Path) {
    base.rooted == p.rooted &&
    |base.segments| <= |p.segments| &&
    p.segments[..|base.segments|] == base.segments
  }

  /** The fixed, deliberately vague error text. */
  const InvalidPath: string := "Invalid path"

  /** A relative path free of `..` means the target lies within the base. */
  lemma RelWithoutDotDot(base: Path, targ: Path)
    requires RelSegments(base, targ).Some?
    requires IndexOf(RelText(RelSegments(base, targ).value), "..") < 0
    ensures Within(base, targ)
  {
    if targ != base {
      var k := CommonPrefix(base.segments, targ.segments);
      if k < |base.segments| {
        var segs := RelSegments(base, targ).value;
        assert segs[0] == "..";
        JoinSlashHead(segs);
        assert false;
      }
    }
  }

  /** `normalizePathUnderRoot(root, child)`: the cleaned join of root and
      child, accepted only when the path relative to the root contains no
      `..` anywhere. On success the result is the cleaned join and lies
      within the cleaned root; every failure carries the same fixed text. */
  function NormalizePathUnderRoot(root: string, child: string): (r: Result<string>)
    ensures r.Err? ==> r.message == InvalidPath
    ensures r.Ok? ==> r.value == CleanString(JoinPath(root, child))
    ensures r.Ok? ==> Within(Clean(Parse(root)), Clean(Parse(r.value)))
  {
    var requestPath := CleanString(JoinPath(root, child));
    var rel := Rel(root, requestPath);
    if rel.Err? || IndexOf(rel.value, "..") >= 0 then Err(InvalidPath)
    else
      RelWithoutDotDot(Clean(Parse(root)), Clean(Parse(requestPath)));
      Ok(requestPath)
  }

  lemma OccursAtDotDot(s: string, i: int)
    ensures OccursAt(s, "..", i) <==> 0 <= i && i + 1 < |s| && s[i] == '.' && s[i + 1] == '.'
  {
    if 0 <= i && i + 1 < |s| && s[i] == '.' && s[i + 1] == '.' {
      assert s[i..i + 2] == "..";
    }
  }

  /** A slash never takes part in `..`, so `..` occurs in `a/b` exactly
      when it occurs in `a` or in `b`. */
  lemma DotDotAround(a: string, b: string)
    ensures Occurs(a + "/" + b, "..") <==> Occurs(a, "..") || Occurs(b, "..")
  {
    var s := a + "/" + b;
    if Occurs(s, "..") {
      var i :| 0 <= i <= |s| && OccursAt(s, "..", i);
      OccursAtDotDot(s, i);
      if i + 1 < |a| {
        OccursAtDotDot(a, i);
      } else if i > |a| {
        OccursAtDotDot(b, i - |a| - 1);
      }
    }
    if Occurs(a, "..") {
      var i :| 0 <= i <= |a| && OccursAt(a, "..", i);
      OccursAtDotDot(a, i);
      OccursAtDotDot(s, i);
    }
    if Occurs(b, "..") {
      var i :| 0 <= i <= |b| && OccursAt(b, "..", i);
      OccursAtDotDot(b, i);
      OccursAtDotDot(s, i + |a| + 1);
    }
  }

  /** `..` occurs in the joined segments exactly when it occurs in one of
      them. */
  lemma {:induction false} DotDotInJoin(segs: seq<string>)
    ensures Occurs(JoinSlash(segs), "..") <==> exists i :: 0 <= i < |segs| && Occurs(segs[i], "..")
    decreases |segs|
  {
    if |segs| == 0 {
      assert !OccursAt("", "..", 0);
    } else if |segs| > 1 {
      DotDotAround(segs[0], JoinSlash(segs[1..]));
      DotDotInJoin(segs[1..]);
      assert forall i :: 0 < i < |segs| ==> segs[i] == segs[1..][i - 1];
    }
  }

  /** The request path `normalizePathUnderRoot` computes, as a clean path. */
  function Target(root: string, child: string): Path {
    Clean(Parse(JoinPath(root, child)))
  }

  /** A target strictly below the base is reached by its segments past the
      base. */
  lemma RelOfDescendant(base: Path, targ: Path)
    requires Within(base, targ) && targ != base
    ensures RelSegments(base, targ) == Some(targ.segments[|base.segments|..])
  {
    var k := CommonPrefix(base.segments, targ.segments);
    assert k == |base.segments|;
  }

  /** No segment of `p` from position `k` on contains `..`. */
  ghost predicate NoDotDotFrom(p: Path, k: nat) {
    forall i :: k <= i < |p.segments| ==> !Occurs(p.segments[i], "..")
  }

  /** The acceptance test on clean paths: `filepath.Rel` succeeds without a
      `..` in its text exactly when the target lies within the base and no
      segment below the base contains `..`. */
  lemma RelAcceptsExactly(base: Path, targ: Path)
    ensures (RelSegments(base, targ).Some? && IndexOf(RelText(RelSegments(base, targ).value), "..") < 0) <==>
            Within(base, targ) && NoDotDotFrom(targ, |base.segments|)
  {
    if RelSegments(base, targ).Some? && IndexOf(RelText(RelSegments(base, targ).value), "..") < 0 {
      RelWithoutDotDot(base, targ);
    }
    if targ == base {
      assert IndexOf(".", "..") < 0;
    } else if Within(base, targ) {
      var k := |base.segments|;
      var below := targ.segments[k..];
      RelOfDescendant(base, targ);
      DotDotInJoin(below);
      assert forall i :: k <= i < |targ.segments| ==> targ.segments[i] == below[i - k];
    }
  }

  /** `normalizePathUnderRoot` accepts exactly the requests whose cleaned
      join lies within the cleaned root and has no segment below the root
      containing `..`; so it also refuses a name such as `a..b`. */
  lemma NormalizeAcceptsExactly(root: string, child: string)
    ensures NormalizePathUnderRoot(root, child).Ok? <==>
            Within(Clean(Parse(root)), Target(root, child)) &&
            NoDotDotFrom(Target(root, child), |Clean(Parse(root)).segments|)
  {
    var targ := Target(root, child);
    ParseFormatRoundTrip(targ);
    RelAcceptsExactly(Clean(Parse(root)), targ);
  }

  /** The empty path cleans to `.`. */
  lemma CleanEmpty()
    ensures CleanString("") == "."
  {
    assert Split("") == [""];
  }

  /** Appending `/.` or `//` to a non-empty path does not change its
      cleaned form. */
  lemma CleanAppendNothing(root: string, tail: string)
    requires root != ""
    requires tail == "." || tail == "/"
    ensures CleanString(root + "/" + tail) == CleanString(root)
  {
    var rooted := Parse(root).rooted;
    var stack := Fold(rooted, [], Split(root));
    SplitAround(root, tail);
    assert (root + "/" + tail)[0] == root[0];
    if tail == "." {
      SplitDot();
      assert ["."][..0] == [];
      FoldAppend(rooted, [], Split(root), ["."]);
    } else {
      assert Split("/") == ["", ""] by {
        assert "/"[1..] == "";
      }
      assert ["", ""][..1] == [""];
      assert [""][..0] == [];
      FoldAppend(rooted, [], Split(root), ["", ""]);
    }
  }

  /** The children `""` and `.` always resolve to the cleaned root, and so
      does `/` for any non-empty root (the served root, being the cleaned
      start-up argument, is never empty). */
  lemma RootAliases(root: string)
    ensures NormalizePathUnderRoot(root, "") == Ok(CleanString(root))
    ensures NormalizePathUnderRoot(root, ".") == Ok(CleanString(root))
    ensures root != "" ==> NormalizePathUnderRoot(root, "/") == Ok(CleanString(root))
  {
    var base := Clean(Parse(root));
    CleanStringIdempotent(root);
    ParseFormatRoundTrip(base);
    CleanEmpty();
    assert IndexOf(".", "..") < 0;
    if root == "" {
      SplitDot();
    } else {
      CleanAppendNothing(root, ".");
      CleanAppendNothing(root, "/");
    }
  }

  /** A lone name cleans to the relative path of that one segment. */
  lemma CleanSingleName(name: string)
    requires IsName(name)
    ensures Clean(Parse(name)) == Path(false, [name])
  {
    SplitNoSlash(name);
    assert name[0] != '/';
    var single: seq<string> := [name];
    assert single[..0] == [];
    assert Fold(false, [], single) == Push(false, Fold(false, [], []), name);
  }

  /** `filepath.Join(dir, name)` for a single name cleans to the cleaned
      `dir` with `name` appended, whether or not `dir` is empty. */
  lemma JoinName(dir: string, name: string)
    requires IsName(name)
    ensures Clean(Parse(JoinPath(dir, name))) ==
            Path(Clean(Parse(dir)).rooted, Clean(Parse(dir)).segments + [name])
  {
    if dir == "" {
      assert Clean(Parse(dir)) == Path(false, []) by {
        assert Split("") == [""];
      }
      CleanSingleName(name);
    } else {
      CleanAppendName(dir, name);
    }
  }

  /** Cleaning `a/b` for a non-empty `a` pushes the pieces of `b` onto the
      cleaned `a`, with `a`'s rootedness: a rooted `b` does not replace `a`. */
  lemma CleanAppendPath(a: string, b: string)
    requires a != ""
    ensures Clean(Parse(a + "/" + b)) ==
            Path(Clean(Parse(a)).rooted, Fold(Clean(Parse(a)).rooted, Clean(Parse(a)).segments, Split(b)))
  {
    var rooted := Parse(a).rooted;
    assert (a + "/" + b)[0] == a[0];
    SplitAround(a, b);
    FoldAppend(rooted, [], Split(a), Split(b));
  }

  /** `filepath.Join(a, b)`: for a non-empty `a` it cleans to the cleaned `a`
      with the pieces of `b` pushed on; for an empty `a` it cleans like `b`. */
  lemma JoinPushesChild(a: string, b: string)
    ensures a != "" ==>
              Clean(Parse(JoinPath(a, b))) ==
              Path(Clean(Parse(a)).rooted, Fold(Clean(Parse(a)).rooted, Clean(Parse(a)).segments, Split(b)))
    ensures a == "" ==> Clean(Parse(JoinPath(a, b))) == Clean(Parse(b))
  {
    if a != "" {
      if b == "" {
        var c := Clean(Parse(a));
        assert Split("") == [""];
        var empty: seq<string> := [""];
        assert empty[..0] == [];
        assert Fold(c.rooted, c.segments, empty) == c.segments;
      } else {
        CleanAppendPath(a, b);
      }
    }
  }

  /** `/name` cleans to the rooted path of that one segment. */
  lemma CleanRootedName(name: string)
    requires IsName(name)
    ensures Split("/" + name) == ["", name]
    ensures Clean(Parse("/" + name)) == Path(true, [name])
  {
    var s := "/" + name;
    assert Split(s) == ["", name] by {
      assert s[1..] == name;
      SplitNoSlash(name);
      SplitCons(s);
    }
    var pieces: seq<string> := ["", name];
    assert pieces[..1] == [""] && pieces[..1][..0] == [];
    assert Fold(true, [], pieces[..1]) == [];
    assert Fold(true, [], pieces) == Push(true, [], name);
  }

  /** `/r` joined with `/c`, for names `r` and `c`, cleans to the rooted
      path `r/c`. */
  lemma RootedChildTarget(r: string, c: string)
    requires IsName(r) && IsName(c)
    ensures Target("/" + r, "/" + c) == Path(true, [r, c])
  {
    CleanRootedName(r);
    CleanRootedName(c);
    JoinPushesChild("/" + r, "/" + c);
    var pieces: seq<string> := ["", c];
    assert pieces[..1] == [""] && pieces[..1][..0] == [];
    assert Fold(true, [r], pieces[..1]) == [r];
    assert Fold(true, [r], pieces) == [r, c];
  }

  /** A rooted child is joined below the root, not substituted for it. */
  lemma RootedChildJoined(r: string, c: string)
    requires IsName(r) && IsName(c)
    ensures JoinPath("/" + r, "/" + c) == "/" + r + "/" + c
  {
    var a, b := "/" + r, "/" + c;
    RootedChildTarget(r, c);
    assert JoinPath(a, b) == CleanString(a + "/" + b);
    assert Target(a, b) == Clean(Parse(a + "/" + b));
    FormatTwo(r, c);
  }

  lemma FormatTwo(r: string, c: string)
    ensures Format(Path(true, [r, c])) == "/" + r + "/" + c
  {
    var segs := [r, c];
    assert segs[1..] == [c];
    assert JoinSlash(segs) == r + "/" + c;
  }

  /** A string without `.` has no `..` in it. */
  lemma NoDotNoDotDot(c: string)
    requires forall i :: 0 <= i < |c| ==> c[i] != '.'
    ensures !Occurs(c, "..")
  {
    forall i | 0 <= i <= |c|
      ensures !OccursAt(c, "..", i)
    {
      OccursAtDotDot(c, i);
    }
  }

  /** A rooted child without `..` is accepted, below the root. */
  lemma RootedChildAccepted(r: string, c: string)
    requires IsName(r) && IsName(c) && !Occurs(c, "..")
    ensures NormalizePathUnderRoot("/" + r, "/" + c) == Ok("/" + r + "/" + c)
  {
    RootedChildJoined(r, c);
    CleanRootedName(r);
    RootedChildTarget(r, c);
    var targ := Target("/" + r, "/" + c);
    assert Within(Path(true, [r]), targ) by {
      assert targ.segments[..1] == [r];
    }
    assert NoDotDotFrom(targ, 1) by {
      assert targ.segments[1] == c;
    }
    NormalizeAcceptsExactly("/" + r, "/" + c);
  }

  /** The request `/etc` under the root `/srv` is accepted as `/srv/etc`,
      and `filepath.Join` gives that path. */
  lemma AbsoluteChildStaysUnderRoot()
    ensures JoinPath("/srv", "/etc") == "/srv/etc"
    ensures NormalizePathUnderRoot("/srv", "/etc") == Ok("/srv/etc")
  {
    var r, c := "srv", "etc";
    assert "/" + r == "/srv" && "/" + c == "/etc" && "/" + r + "/" + c == "/srv/etc";
    assert IsName(r) && IsName(c) && !Occurs(c, "..") by {
      NoDotNoDotDot(c);
    }
    RootedChildAccepted(r, c);
    RootedChildJoined(r, c);
  }

  /** `/r/x` cleans to the rooted path `r/x`. */
  lemma CleanRootedPair(r: string, x: string)
    requires IsName(r) && IsName(x)
    ensures Clean(Parse("/" + r + "/" + x)) == Path(true, [r, x])
  {
    RootedChildTarget(r, x);
    RootedChildJoined(r, x);
  }

  /** From one file to its sibling, `filepath.Rel` climbs one level and
      descends again: the climbing case relates, it is not refused. */
  lemma RelToSibling(r: string, x: string, y: string)
    requires IsName(r) && IsName(x) && IsName(y) && x != y
    ensures Rel("/" + r + "/" + x, "/" + r + "/" + y) == Ok("../" + y)
  {
    var base, targ := Path(true, [r, x]), Path(true, [r, y]);
    CleanRootedPair(r, x);
    CleanRootedPair(r, y);
    assert CommonPrefix(base.segments, targ.segments) == 1 by {
      assert base.segments[1..] == [x] && targ.segments[1..] == [y];
    }
    assert RelSegments(base, targ) == Some(Ups(1) + [y]) by {
      assert targ.segments[1..] == [y];
    }
    var segs := Ups(1) + [y];
    assert segs == ["..", y] && segs[1..] == [y];
    assert JoinSlash(segs[1..]) == y;
    assert RelText(segs) == ".." + "/" + y;
    assert ".." + "/" + y == "../" + y;
  }

  /** `filepath.Rel("/a/b", "/a/c")` is `../c`. */
  lemma RelClimbsToSibling()
    ensures Rel("/a/b", "/a/c") == Ok("../c")
  {
    assert "/" + "a" + "/" + "b" == "/a/b" && "/" + "a" + "/" + "c" == "/a/c" && "../" + "c" == "../c";
    RelToSibling("a", "b", "c");
  }

  /** A single name containing `..` is refused under any root, although it
      does not leave the root: `a..b` is an ordinary file name. */
  lemma DotDotNameRefused(root: string, name: string)
    requires IsName(name)
    requires Occurs(name, "..")
    ensures NormalizePathUnderRoot(root, name) == Err(InvalidPath)
  {
    var base := Clean(Parse(root));
    var targ := Target(root, name);
    JoinName(root, name);
    assert targ.segments[|base.segments|] == name;
    assert !NoDotDotFrom(targ, |base.segments|);
    NormalizeAcceptsExactly(root, name);
  }

  /* ---------------------------------------------------------------------- */
  /* path.Base                                                              */
  /* ---------------------------------------------------------------------- */

  /** `s` without its trailing slashes. */
  function StripTrailingSlashes(s: string): (r: string)
    ensures |r| <= |s| && r == s[..|r|]
    ensures r == "" || r[|r| - 1] != '/'
    ensures forall i :: |r| <= i < |s| ==> s[i] == '/'
    decreases |s|
  {
    if |s| > 0 && s[|s| - 1] == '/' then StripTrailingSlashes(s[..|s| - 1]) else s
  }

  /** `path.Base`: the last element after trailing slashes are removed; `.`
      for the empty path and `/` for a path of slashes only. */
  function Base(p: string): (r: string)
    ensures r != ""
    ensures r == "/" || NoSlash(r)
    ensures r == "/" <==> p != "" && forall i :: 0 <= i < |p| ==> p[i] == '/'
  {
    if p == "" then "."
    else
      var q := StripTrailingSlashes(p);
      var last := AfterLastSlash(q);
      StrippedToNothing(p);
      AfterLastSlashOfStripped(q);
      if last == "" then "/" else last
  }

  /** What follows the last `/` of `q`, or all of `q` when it has none. */
  function AfterLastSlash(q: string): string {
    var i := LastIndexOf(q, '/');
    if i >= 0 then q[i + 1..] else q
  }

  /** Only a path of slashes strips to nothing. */
  lemma StrippedToNothing(s: string)
    ensures StripTrailingSlashes(s) == "" <==> forall i :: 0 <= i < |s| ==> s[i] == '/'
  {
    var r := StripTrailingSlashes(s);
    if r != "" {
      assert s[|r| - 1] == r[|r| - 1];
    }
  }

  /** After the last slash of a string not ending in one there is a
      slash-free piece, empty only for the empty string. */
  lemma AfterLastSlashOfStripped(q: string)
    requires q == "" || q[|q| - 1] != '/'
    ensures NoSlash(AfterLastSlash(q))
    ensures AfterLastSlash(q) == "" <==> q == ""
  {
    var i := LastIndexOf(q, '/');
    if i >= 0 {
      assert i < |q| - 1;
      var last := q[i + 1..];
      forall j | 0 <= j < |last|
        ensures last[j] != '/'
      {
        assert last[j] == q[i + 1 + j];
      }
    }
  }

  /** The base of `pre/last` is `last`, for a non-empty slash-free `last`. */
  lemma BaseAfterSlash(pre: string, last: string)
    requires last != "" && NoSlash(last)
    ensures Base(pre + "/" + last) == last
  {
    var s := pre + "/" + last;
    assert s[|s| - 1] == last[|last| - 1];
    assert StripTrailingSlashes(s) == s;
    assert AfterLastSlash(s) == last by {
      assert s[|pre|] == '/';
      assert forall j :: |pre| < j < |s| ==> s[j] == last[j - |pre| - 1];
      assert LastIndexOf(s, '/') == |pre|;
      assert s[|pre| + 1..] == last;
    }
  }

  /** The base of a non-empty slash-free string is the string itself. */
  lemma BaseOfName(last: string)
    requires last != "" && NoSlash(last)
    ensures Base(last) == last
  {
    assert StripTrailingSlashes(last) == last;
    assert AfterLastSlash(last) == last by {
      assert LastIndexOf(last, '/') < 0;
    }
  }

  /** The base of a clean path is its last segment; `/` and `.` for the
      segment-less rooted and relative paths. */
  lemma BaseOfCleanPath(p: Path)
    requires IsClean(p)
    ensures Base(Format(p)) ==
            if |p.segments| > 0 then p.segments[|p.segments| - 1]
            else if p.rooted then "/" else "."
  {
    if |p.segments| == 0 {
      BaseOfEmptyPath(p.rooted);
    } else {
      BaseOfLastSegment(p);
    }
  }

  lemma BaseOfEmptyPath(rooted: bool)
    ensures Base(Format(Path(rooted, []))) == if rooted then "/" else "."
  {
    if rooted {
      assert Format(Path(rooted, [])) == "/";
      assert "/"[..0] == "";
    } else {
      BaseOfName(".");
    }
  }

  lemma BaseOfLastSegment(p: Path)
    requires IsClean(p) && |p.segments| > 0
    ensures Base(Format(p)) == p.segments[|p.segments| - 1]
  {
    var segs := p.segments;
    var last := segs[|segs| - 1];
    assert last != "" && NoSlash(last) by {
      CleanSegmentsHaveNoSlash(p);
      assert CleanAt(p.rooted, segs, |segs| - 1);
    }
    var pre, slash := FormatBeforeLast(p);
    if slash {
      BaseAfterSlash(pre, last);
    } else {
      BaseOfName(last);
    }
  }

  /** A path with segments prints as its last segment, possibly preceded by
      something and a slash. */
  lemma FormatBeforeLast(p: Path) returns (pre: string, slash: bool)
    requires |p.segments| > 0
    ensures slash ==> Format(p) == pre + "/" + p.segments[|p.segments| - 1]
    ensures !slash ==> Format(p) == p.segments[|p.segments| - 1]
  {
    var segs := p.segments;
    var last := segs[|segs| - 1];
    if |segs| >= 2 {
      JoinSlashSnoc(segs);
      pre := JoinSlash(segs[..|segs| - 1]);
      if p.rooted {
        pre := "/" + pre;
      }
      slash := true;
    } else if p.rooted {
      pre, slash := "", true;
    } else {
      pre, slash := "", false;
    }
  }
}

=== FILE: text.dfy ===
/** The handful of Go string primitives the core relies on: ASCII digit tests
    and lower-casing, Go's byte-wise string order, `strings.Index`,
    `strings.LastIndex` and `strings.HasPrefix`. Go strings are modelled as
    sequences of characters; for the ASCII names this model reasons about, a
    character is a byte. */
module Text {

  /** `unicode.IsDigit`, restricted to ASCII. */
  predicate IsDigit(c: char) {
    '0' <= c <= '9'
  }

  /** `unicode.ToLower` on one character, restricted to ASCII. */
  function LowerChar(c: char): char {
    if 'A' <= c <= 'Z' then (c as int + 32) as char else c
  }

  lemma LowerCharKeepsDigitness(c: char)
    ensures IsDigit(LowerChar(c)) == IsDigit(c)
    ensures IsDigit(c) ==> LowerChar(c) == c
  {
  }

  /** `strings.ToLower`: every character lower-cased, length unchanged. */
  function Lower(s: string): (r: string)
    ensures |r| == |s|
    ensures forall i :: 0 <= i < |s| ==> r[i] == LowerChar(s[i])
  {
    if s == "" then "" else [LowerChar(s[0])] + Lower(s[1..])
  }

  lemma LowerAppend(a: string, b: string)
    ensures Lower(a + b) == Lower(a) + Lower(b)
  {
    assert forall i :: 0 <= i < |a + b| ==> Lower(a + b)[i] == (Lower(a) + Lower(b))[i];
  }

  /** A string without upper-case letters lower-cases to itself. */
  lemma LowerOfLowerCase(s: string)
    requires forall i :: 0 <= i < |s| ==> !('A' <= s[i] <= 'Z')
    ensures Lower(s) == s
  {
  }

  /** Lower-casing is idempotent: a lower-cased name lower-cases to itself. */
  lemma LowerIdempotent(s: string)
    ensures Lower(Lower(s)) == Lower(s)
  {
    assert forall i :: 0 <= i < |s| ==> Lower(Lower(s))[i] == Lower(s)[i];
  }

  /** Go's `a < b` on strings: byte-wise lexicographic order, a proper prefix
      coming first. */
  predicate Below(a: string, b: string)
    decreases |a|
  {
    |b| > 0 && (|a| == 0 || a[0] < b[0] || (a[0] == b[0] && Below(a[1..], b[1..])))
  }

  /** `sort.StringsAreSorted([]string{a, b})`, i.e. `!(b < a)`, i.e. `a <= b`. */
  predicate NotAfter(a: string, b: string) {
    !Below(b, a)
  }

  lemma {:induction false} BelowIrreflexive(a: string)
    ensures !Below(a, a)
    decreases |a|
  {
    if |a| > 0 {
      BelowIrreflexive(a[1..]);
    }
  }

  lemma {:induction false} BelowTrichotomy(a: string, b: string)
    ensures a == b || Below(a, b) || Below(b, a)
    ensures !(Below(a, b) && Below(b, a))
    decreases |a|
  {
    if |a| > 0 && |b| > 0 && a[0] == b[0] {
      BelowTrichotomy(a[1..], b[1..]);
      if a[1..] == b[1..] {
        assert a == [a[0]] + a[1..] && b == [b[0]] + b[1..];
      }
    }
  }

  /** `<=` on strings is a total order: any two strings compare, and they
      compare both ways exactly when they are equal. */
  lemma NotAfterTotal(a: string, b: string)
    ensures NotAfter(a, b) || NotAfter(b, a)
    ensures NotAfter(a, b) && NotAfter(b, a) <==> a == b
  {
    BelowTrichotomy(a, b);
    if a == b {
      BelowIrreflexive(a);
    }
  }

  /** `strings.HasPrefix`. */
  predicate HasPrefix(s: string, p: string) {
    |p| <= |s| && s[..|p|] == p
  }

  /** `sub` starts at position `i` of `s`. */
  predicate OccursAt(s: string, sub: string, i: int) {
    0 <= i && i + |sub| <= |s| && s[i..i + |sub|] == sub
  }

  /** `sub` is a substring of `s`. */
  ghost predicate Occurs(s: string, sub: string) {
    exists i :: 0 <= i <= |s| && OccursAt(s, sub, i)
  }

  /** `strings.Index`: the first position at which `sub` occurs in `s`, or -1
      when it occurs nowhere. */
  function IndexOf(s: string, sub: string): (r: int)
    ensures r >= 0 ==> OccursAt(s, sub, r)
    ensures r >= 0 ==> forall j :: 0 <= j < r ==> !OccursAt(s, sub, j)
    ensures r < 0 ==> r == -1 && !Occurs(s, sub)
    decreases |s|
  {
    if |s| < |sub| then -1
    else if s[..|sub|] == sub then 0
    else
      var k := IndexOf(s[1..], sub);
      OccursShift(s, sub);
      assert !OccursAt(s, sub, 0);
      if k < 0 then -1 else k + 1
  }

  lemma OccursShift(s: string, sub: string)
    requires |s| > 0
    ensures forall j :: 1 <= j ==> (OccursAt(s, sub, j) <==> OccursAt(s[1..], sub, j - 1))
  {
    forall j | 1 <= j
      ensures OccursAt(s, sub, j) <==> OccursAt(s[1..], sub, j - 1)
    {
      if j + |sub| <= |s| {
        var t := s[1..];
        var a, b := s[j..j + |sub|], t[j - 1..j - 1 + |sub|];
        assert forall k :: 0 <= k < |sub| ==> a[k] == b[k];
        assert s[j..j + |sub|] == t[j - 1..j - 1 + |sub|];
      }
    }
  }

  /** `strings.Index(s, p) == 0` is exactly `strings.HasPrefix(s, p)`. */
  lemma IndexZeroIsPrefix(s: string, p: string)
    ensures IndexOf(s, p) == 0 <==> HasPrefix(s, p)
  {
    if HasPrefix(s, p) {
      assert OccursAt(s, p, 0);
    }
  }

  /** `strings.LastIndex(s, string(c))`: the last position holding `c`, or -1. */
  function LastIndexOf(s: string, c: char): (r: int)
    ensures -1 <= r < |s|
    ensures r >= 0 ==> s[r] == c
    ensures forall j :: r < j < |s| ==> s[j] != c
    decreases |s|
  {
    if |s| == 0 then -1
    else if s[|s| - 1] == c then |s| - 1
    else LastIndexOf(s[..|s| - 1], c)
  }
}

=== FILE: wrappers.dfy ===
/** Failure-carrying result types shared by the rest of the model. */
module Wrappers {

  /** A value that may be absent: Go's `(value, ok)` or `(value, err)` pairs
      when the error carries no information the model needs. */
  datatype Option<+T> = None | Some(value: T)

  /** A value or an error message, as Go's `(value, error)` return pairs. */
  datatype Result<+T> = Ok(value: T) | Err(message: string)
}
